=== FILE: README.md ===
# Murder Requiem game state, in Dafny

This project models the game-state machine of a browser mystery game: the
`Game` object of `game.js`. The player questions suspects through an AI chat,
collects evidence, explores locations under a ten-minute cooldown, and finally
accuses a culprit. The model covers these parts:

- **Progress record.** The record has its defaults and is saved to and restored
  from browser storage. Loading is a shallow, key-by-key merge.
- **Reply parsing.** An AI reply is split into the spoken part and the hint
  (`outer_voice:` / `inner_voice:`). Markers match in either ASCII letter case
  and are followed by an ASCII `:` or a full-width `：`. Trimming uses the JavaScript whitespace
  set.
- **Evidence.** Evidence ids are owned without duplicates. Two passes grant
  evidence:
  - the start pass, on every load;
  - the keyword pass, after every AI reply, where a condition
    `"<character>:<keyword>"` is met when the character being questioned is
    `<character>` and the reply contains `<keyword>`.
- **Known-evidence block.** The list of owned evidence that goes into the
  system prompt.
- **Locations.** Exploring has three branches: reopen a visited location,
  refuse while cooling down, or explore a new one. A once-a-second tick ends
  the cooldown. The location buttons are disabled by a fixed rule, and the
  timer readout shows the elapsed time and the time left in the cooldown.
- **Chat turn.** An in-flight flag rejects a second message while one is
  pending. The history window passed to `sendToAI` is the last ten entries,
  which the client ignores (ai.js:27). A failed
  call records only the user's message.
- **Accusation.** It produces a fixed ending.

Modules:

- `Wrappers`: `Option`.
- `Text`: JavaScript `trim`, ASCII case folding, marker search, `split` and
  `includes`.
- `Reply`: the reply parse.
- `Evidence`: the evidence passes and the known-evidence block.
- `GameState`: the record, the merge and the history.
- `Cooldown`: exploring, the tick, the buttons and the readout.
- `Session`: class `Game`, whose methods update the record in place.
- `Accusation`: the ending.
- `Walkthrough`: a short play session driven through the `Game` methods.

Each `Game` method's contract ties the new record to a function of the old one
(`state == Explore(old(state), num, now, confirmed)`). It also says when the
record is written to storage. The lemmas beside those functions state what the
game promises about them.

The clock, the player's answer to a confirmation dialog and the AI's reply (or
its failure) are parameters. Browser storage is a field holding the last
record written (`storage`).

## Behaviour worth noting

These points of the code are easy to misread, and the model keeps them as the
code has them:

- **Keyword format.** The unlock keyword is one substring. A condition is split
  on `:` only and must give exactly two parts. A `|` in the keyword is
  matched literally, as one more character of the substring.
- **Start evidence.** It is granted on every load. The grant is not saved
  until something else saves.
- **Culprit.** The culprit is the fixed id `"renzo"`. It is not read from the
  scenario.
- **History window.** The window passed to `sendToAI` is read after the user's
  message is recorded, so it ends with that message.
- **No chat memory.** `sendToAI` (ai.js:27) takes only the system prompt and
  the message, and its request body (ai.js:69-77) holds only those two, so
  the window is dropped and the AI never sees the chat history.
- **Late replies.** A reply is filed under whichever character is current when
  it arrives, and the keyword pass runs for that character. If the player has
  left the room and opened no other, that is the key `"null"` and the keyword
  pass matches no character; if another room was opened meanwhile, the reply
  goes into that character's history and unlocks evidence for them.

## Model

| member | source | states |
|---|---|---|
| Text.Trim | game.js:58 | the result is empty exactly when the input is all JavaScript whitespace, otherwise it neither starts nor ends with whitespace |
| Text.TrimPadded | game.js:97-98 | trimming whitespace + x + whitespace gives x back for any already-trimmed x |
| Text.TrimIdempotent | game.js:97-98 | trimming twice is trimming once |
| Text.Find | game.js:95-96 | the result is the leftmost marker occurrence (any ASCII case, with or without a colon as asked) at or after the start, or none exists |
| Text.Split | game.js:160 | `split(':')` gives at least one part, no part holds the separator, and joining the parts with it gives the input back |
| Text.SplitJoin | game.js:160 | splitting a join of separator-free parts gives the parts back |
| Text.Contains | game.js:161 | `String.prototype.includes` by scanning; its meaning is stated by `Text.ContainsIff` |
| Text.ContainsIff | game.js:161 | `includes` holds exactly when the needle occurs at some index of the text |
| Reply.ParseOuter | game.js:95-97 | the spoken part; stated by `Reply.OuterAfterFirstMarker` and `Reply.OuterWithoutMarker` |
| Reply.ParseInner | game.js:96-98 | the hint; stated by `Reply.InnerAfterFirstMarker` and `Reply.InnerWithoutMarker` |
| Reply.ParseReply | game.js:94-98 | parsing is total and neither voice is longer than the reply |
| Reply.OuterAfterFirstMarker | game.js:95-97 | with an outer marker, the spoken part is the trimmed text after the first marker up to the first following `inner_voice` or the end |
| Reply.OuterWithoutMarker | game.js:97 | with no outer marker, the spoken part is the whole reply, untrimmed |
| Reply.InnerAfterFirstMarker | game.js:96-98 | with an inner marker, the hint is the trimmed rest after the first one |
| Reply.InnerWithoutMarker | game.js:98 | with no inner marker, the hint is empty |
| Reply.FormatParse | game.js:95-98 | a reply in the format the prompt asks for, with either colon and any marker case, in which no `inner_voice` (in any ASCII case) starts inside the speech, parses back to the trimmed speech and the trimmed hint |
| Reply.ParseExample | game.js:95-98 | "outer_voice: Hello\ninner_voice: watch Bob" parses to "Hello" and "watch Bob" |
| Reply.PlainReply | game.js:97-98 | a reply holding neither marker (with its colon) is shown whole, with an empty hint |
| Reply.ShortReplyIsPlain | game.js:94-98 | a reply shorter than a marker, such as "Hello", is shown whole with an empty hint |
| Evidence.KeywordUnlocks | game.js:159-161 | the keyword condition; stated by `Evidence.UnlockPassMembers` and `Evidence.KeywordExample` |
| Evidence.AddId | game.js:137-139 | the id is appended only if absent: an owned id leaves the list unchanged (whether or not it holds duplicates), old entries keep their order, membership gains exactly the id, no duplicates appear |
| Evidence.AddIdTwice | game.js:138 | adding the same id again changes nothing |
| Evidence.Collect | game.js:126-131 | a pass over the definitions only appends to the owned list and keeps it duplicate-free |
| Evidence.CollectMembers | game.js:158-162 | after a pass an id is owned exactly when it was owned before or some definition with that id satisfies the pass's rule |
| Evidence.CollectIdempotent | game.js:156-168 | running the same pass twice with the same input equals running it once |
| Evidence.CollectStable | game.js:159 | a pass in which every wanted id is already owned changes nothing |
| Evidence.CollectAppend | game.js:158 | a pass over two runs of definitions is the pass over the first followed by the pass over the second |
| Evidence.CollectSnoc | game.js:158 | a pass over one more definition is one more step |
| Evidence.CollectAddsFresh | game.js:158-162 | the ids a pass appends are new and pairwise distinct |
| Evidence.UnlockPass | game.js:156-162 | the keyword pass over the scenario; stated by `Evidence.UnlockPassMembers` and the `Collect` lemmas |
| Evidence.GrantStart | game.js:126-131 | the start pass over the scenario; stated by `Evidence.GrantStartMembers` and the `Collect` lemmas |
| Evidence.UnlockPassMembers | game.js:159-162 | after a reply an id is owned exactly when it was owned or a definition with that id is not the start kind, splits into two parts on `:`, names the current character and has a keyword the reply contains |
| Evidence.GrantStartMembers | game.js:126-131 | after loading, every start evidence is owned and nothing else was added |
| Evidence.KeywordExample | game.js:160-161 | a reply from yotsuba containing 鍵 meets the condition "yotsuba:鍵" |
| Evidence.FindDef | game.js:141 | a found definition is in the table and has the id; none found means no definition has it |
| Evidence.KnownLines | game.js:265-268 | there is at most one line per owned id |
| Evidence.KnownLinesFromDefs | game.js:266-267 | every line is "- name: description" of some scenario definition |
| Evidence.KnownLinesInOrder | game.js:265-268 | when every owned id is defined, there is one line per id, in discovery order |
| Evidence.KnownLinesAppend | game.js:265-268 | the block of two runs of owned ids is the block of the first followed by the block of the second |
| Evidence.KnownLinesSkipsUndefined | game.js:266-268 | an owned id with no definition adds no line, wherever it stands in the list |
| Evidence.KnownEvidence | game.js:265-268 | the known-evidence block; stated by `Evidence.KnownEvidenceSplits` and the `KnownLines` lemmas |
| Evidence.KnownEvidenceSplits | game.js:268 | for a non-empty block in which no name or description holds a newline, the block splits back into its lines |
| GameState.Defaults | game.js:8-18 | a new record is in detective mode, owns nothing, has visited nothing, has no history and no flags, lists locations 6 to 10 as unlocked, is not cooling down, has last exploration 0, and starts at the given time |
| GameState.Merge | game.js:124 | the shallow merge of the stored record over the current one; stated by `GameState.MergeByKey`, `MergeSnapshot` and `MergeEmpty` |
| GameState.MergeSnapshot | game.js:124 | loading a saved record restores it whatever the defaults were |
| GameState.MergeEmpty | game.js:124 | a stored record with no keys leaves the defaults |
| GameState.MergeByKey | game.js:124 | each of the nine keys (difficulty, evidences, history, flags, unlocked and visited locations, cooldown flag, last exploration, start time) comes from the stored record when present and from the current record otherwise |
| GameState.MakeEntry | game.js:91-98 | a model reply is recorded with its parsed voices; any other role shows its text and has no hint |
| GameState.VisibleHint | game.js:111 | a hint is shown exactly for a model reply with a non-empty inner voice in master mode |
| GameState.HintsOnlyInMasterMode | game.js:111 | detective mode shows no hint, and user or system entries never show one |
| GameState.HistoryKey | game.js:89 | the history key of the current character, "null" when there is none; used by `Session.Game.AppendMessage` and `Session.Turn` |
| GameState.Appended | game.js:90-101 | exactly one entry is added at the end of one character's history, which is created if absent; every other history and field is unchanged |
| GameState.RecentHistory | game.js:74 | the window is the last ten entries, or all of them when there are fewer |
| GameState.RecentEndsWithLast | game.js:60-74 | right after an entry is appended, the window holds between one and ten entries and ends with that entry |
| Cooldown.Decide | game.js:199-203 | the branch a location click takes; stated by `Cooldown.ExploreChangesOnlyOnExplored`, `RevisitIsFree` and `DisabledMeansRefused` |
| Cooldown.Explore | game.js:199-208 | the record after a location click; stated by `Cooldown.ExploreChangesOnlyOnExplored` and `ExploreKeepsVisitedDistinct` |
| Cooldown.Tick | game.js:193-194 | the once-a-second check; stated by `Cooldown.TickClears`, `TickIdempotent` and `TickMonotone` |
| Cooldown.LocationButtons | game.js:212-216 | the five flags are, in order, buttons 6..10, and each is disabled exactly when its location is new and a cooldown is running |
| Cooldown.RevisitIsFree | game.js:200 | a visited location reopens in any state and nothing changes |
| Cooldown.ExploreChangesOnlyOnExplored | game.js:199-208 | the record changes exactly when the location is new, no cooldown runs and the player confirms; then the location is appended, the cooldown is on and its start is now |
| Cooldown.ExploreKeepsVisitedDistinct | game.js:200-203 | the visited list only grows, by at most one, and stays duplicate-free |
| Cooldown.DisabledMeansRefused | game.js:201-216 | a disabled button is exactly a click that the cooldown refuses |
| Cooldown.OneNewLocationPerCooldown | game.js:201-205 | right after an exploration every other new location is refused |
| Cooldown.TickClears | game.js:193-194 | the tick only switches the cooldown off, exactly when it is on and at least 600000 ms have passed |
| Cooldown.TickIdempotent | game.js:193-194 | ticking twice at one instant equals ticking once |
| Cooldown.TickMonotone | game.js:193-194 | once a tick has ended the cooldown, later ticks keep it ended |
| Cooldown.CooldownLastsTenMinutes | game.js:193-205 | after exploring at t the cooldown survives a tick at t2 exactly when t2 - t < 600000, and then every new location is explorable |
| Cooldown.ToClock | game.js:182-186 | minutes and seconds of a duration; stated by `Cooldown.ToClockExact` |
| Cooldown.TimerReadout | game.js:180-186 | the timer line; stated by `Cooldown.CountdownMatchesTick` and `ElapsedWithoutStart` |
| Cooldown.JsRem | game.js:183 | JavaScript `%` keeps the dividend's sign and stays below the divisor in size |
| Cooldown.ToClockExact | game.js:183 | for a non-negative duration, minutes and seconds are the duration truncated to whole seconds, with seconds below 60 |
| Cooldown.CountdownMatchesTick | game.js:181-186 | the countdown is shown exactly when a tick at the same instant keeps the cooldown, and it then reads the time left truncated to whole seconds |
| Cooldown.ElapsedWithoutStart | game.js:182 | with no start time the elapsed clock reads 0:00 |
| Session.Game.constructor | game.js:4-18 | a new game holds the default record, no current character and no pending request |
| Session.Game.SaveState | game.js:135 | storage holds the whole record |
| Session.Game.SetDifficulty | game.js:40-42 | only the difficulty changes, and the record is saved |
| Session.Game.AppendMessage | game.js:89-102 | the record becomes `Appended` under the current character's key (or "null") with the parsed entry, and it is saved |
| Session.Game.LoadState | game.js:120-133 | the record is the stored one merged over the current one, plus the missing start evidence in scenario order; duplicate-freedom of the merged list is kept; nothing is saved |
| Session.Game.AddEvidence | game.js:137-143 | the owned list becomes `AddId`; a new id is saved and its definition's name is returned for the banner; a known id changes nothing |
| Session.Game.CheckEvidenceUnlock | game.js:156-169 | the owned list becomes the keyword pass over the scenario for the current character and the reply; storage is written exactly when something was added |
| Session.Game.CheckLocationUnlocks | game.js:191-197 | the record becomes `Tick`, it is saved exactly when that changes it, and the button flags of the new record are returned |
| Session.Game.ExploreLocation | game.js:199-209 | the outcome is `Decide` and the record is `Explore`; the document opens exactly on a revisit or a new exploration; the record is saved exactly on a new exploration and stays duplicate-free |
| Session.Game.OpenInterrogation | game.js:236-237 | the current character becomes the chosen one |
| Session.Game.CloseInterrogation | game.js:245-246 | there is no current character |
| Session.Game.BeginTurn | game.js:56-74 | a blank message or a pending request changes nothing; otherwise the flag is raised, the message is recorded and saved, and the request carries the last ten entries, ending with the message |
| Session.Game.CompleteTurn | game.js:76-86 | a reply is recorded and run through the keyword pass; a failure records nothing; the flag is lowered either way |
| Session.Game.SendMessage | game.js:56-87 | a blank message or a pending request changes nothing; otherwise the record becomes `Turn` of the old one for the trimmed message and the reply, it is saved, the flag is lowered, and the record stays duplicate-free |
| Session.Turn | game.js:56-87 | the record after one uninterrupted exchange; stated by `Session.TurnHistory`, `TurnEvidence` and `FailedTurn` |
| Session.TurnHistory | game.js:60-83 | a turn appends the user entry, and also the reply entry when the AI answers, to the character's history; every other history and every part of the record except the evidence list is unchanged |
| Session.TurnEvidence | game.js:81-84 | evidence changes in a turn only through the keyword pass over a reply, and duplicate-freedom is kept |
| Session.FailedTurn | game.js:60-86 | a failed AI call leaves the history one entry (the user's) longer and the evidence unchanged |
| Accusation.Verdict | game.js:326-327 | the ending is correct exactly when the accused id is "renzo" |
| Accusation.ExecuteAccusation | game.js:324-327 | there is an ending exactly when the player confirms, and it is correct exactly for "renzo" |
| Accusation.OneWinner | game.js:327 | "renzo" wins, and no other id does |
| Accusation.EndingText | game.js:326-327 | the correct ending is "TRUE END" with its confession; every other is "BAD END" |
| Walkthrough.FirstLoadGrantsStart | game.js:126-131 | with nothing stored, a load owns exactly the start evidence |
| Walkthrough.KeyReplyUnlocks | game.js:158-162 | a yotsuba reply mentioning 鍵 unlocks the key evidence after the start evidence |
| Walkthrough.KeyTurn | game.js:56-87 | on the record level, the turn that asks yotsuba and gets a reply with 鍵 turns the evidence [e1] into [e1, e2] and leaves the locations and the cooldown alone |
| Walkthrough.AskAboutKey | game.js:56-87 | a message to yotsuba answered with 鍵 leaves the evidence list [e1, e2] and the locations untouched |
| Walkthrough.ExploreSixThenSeven | game.js:191-208 | location 6 is explored, 7 is refused at once, and 7 is explored after a tick ten minutes later |
| Walkthrough.Play | game.js:120-209 | the whole session: [e1] after load, [e1, e2] after the reply, then explored, refused, explored |

## Left out

- Rendering: chat entries, the chat log, the character list, the evidence list, the cut-in banner, the accusation menu, the control buttons and the difficulty buttons (game.js:46-53, 106-117, 146-154, 224-261, 280-292, 307-322, 334-344). These write HTML only. The one such rule kept here is when a hint is shown (`GameState.VisibleHint`); the evidence list shows the owned ids that have a definition, in order, which is what `Evidence.KnownLines` captures, and the difficulty buttons highlight the `difficulty` field.
- Timers: `init`, `startGlobalTimer` and `setInterval`. The tick is a method taking the current time.
- The announcement appended 600 ms after an unlock (game.js:163-166). It is an ordinary system-role `AppendMessage` run later by a timer. Its wording needs the character table, which is not part of this model.
- Browser services: `Date.now`, `confirm`, `alert` and `window.open`. The time and the confirmation answer are parameters. Whether a document opens is returned by `Session.Game.ExploreLocation` (`Cooldown.OpensDocument`).
- `loadScenario` (fetching the scenario and character files) and `getCharacter`. The evidence table is given to the constructor.
- The system prompt's wording and character fields (game.js:264, 270-277). Only the known-evidence block is modelled.
- Stored data: JSON text and parse errors. Storage holds a typed record whose keys may be missing. A key holding a value of the wrong type is not modelled.
- `resetGame`, `sessionStorage` and page navigation after an accusation.
- The AI client (ai.js), the HTTP relay (netlify/functions/gemini.js), check_models.py and config.example.js. The AI call is an `AiReply` value, `Replied(text)` or `Failed`. ai.js turns its errors into reply text (ai.js:37, 91, 96, 100), which arrives here as `Replied`; `Failed` stands for an exception before or during the call, chiefly `constructSystemPrompt` (called at game.js:77) failing when no character is selected or the scenario lacks it.
- Interleaving: `sendMessage` awaits the AI between `BeginTurn` and `CompleteTurn`. Other events may run in between, and the two methods model each side of the wait. `SendMessage` is the case where nothing runs in between.
- Clock text: zero padding and string formatting of the timer line. The readout is kept as minute and second numbers.
- Case folding and whitespace: markers fold ASCII letters only. This is what a case-insensitive JavaScript pattern without the `u` flag does for these ASCII markers. Whitespace is the fixed ECMAScript set.
- Evidence.FindDef: states that a found definition has the id and comes from the table, not that it is the first such entry.
- Cooldown.ToClockExact: the readout is stated only for non-negative durations. A clock set earlier than a recorded time gives negative fields, which are not described.
- Cooldown.JsRem: states the sign and the size bound of the remainder, not its exact value.

=== FILE: accusation.dfy ===
/**
 * The end of the game: accusing a character yields a fixed ending that
 * depends only on whether the accused id is the culprit (game.js:324-330).
 */
module Accusation {
  import opened Wrappers

  /** The culprit's id, fixed in the code rather than read from the scenario. */
  const CULPRIT := "renzo"

  /** The result record handed to the epilogue page. */
  datatype Ending = Ending(title: string, text: string, isCorrect: bool)

  const TRUE_END := Ending("TRUE END", "私がやりました。", true)
  const BAD_END := Ending("BAD END", "間違いです。", false)

  /** The ending for accusing `charId`. */
  function Verdict(charId: string): (e: Ending)
    ensures e.isCorrect <==> charId == CULPRIT
    ensures e == TRUE_END || e == BAD_END
  {
    if charId == CULPRIT then TRUE_END else BAD_END
  }

  /** `executeAccusation`: nothing happens unless the player confirms. */
  function ExecuteAccusation(charId: string, confirmed: bool): (result: Option<Ending>)
    ensures result.Some? <==> confirmed
    ensures result.Some? ==> (result.value.isCorrect <==> charId == CULPRIT)
  {
    if confirmed then Some(Verdict(charId)) else None
  }

  /** Exactly one character id wins. */
  lemma OneWinner(a: string, b: string)
    ensures Verdict(CULPRIT).isCorrect
    ensures Verdict(a).isCorrect && Verdict(b).isCorrect ==> a == b
  {
  }

  /** The title and the line on the epilogue agree with the verdict. */
  lemma EndingText(charId: string)
    ensures Verdict(charId).isCorrect ==> Verdict(charId).title == "TRUE END" && Verdict(charId).text == "私がやりました。"
    ensures !Verdict(charId).isCorrect ==> Verdict(charId).title == "BAD END" && Verdict(charId).text == "間違いです。"
  {
  }
}

=== FILE: cooldown.dfy ===
/**
 * Location exploration and its ten-minute cooldown (game.js:172-219): which
 * click opens a location, what the once-a-second tick clears, which buttons
 * are greyed out, and the clock readout the tick shows.
 */
module Cooldown {
  import opened Wrappers
  import opened Evidence
  import opened GameState

  /** Length of the cooldown after a new location is explored, in milliseconds. */
  const COOLDOWN_MS := 600000

  /** The location buttons are numbered 6 to 10. */
  const FIRST_LOCATION := 6
  const LAST_LOCATION := 10

  /** How a click on a location button ends:
      `Reopened` — already visited, its document opens again, nothing changes;
      `StillCooling` — refused with an alert;
      `Declined` — the player answered no to the confirmation;
      `Explored` — recorded as visited and the cooldown starts. */
  datatype ExploreOutcome = Reopened | StillCooling | Declined | Explored

  /** Which branch `exploreLocation(num)` takes; `confirmed` is the player's
      answer to the confirmation dialog, asked only on the last branch. */
  function Decide(s: State, num: int, confirmed: bool): (o: ExploreOutcome)
  {
    if num in s.visitedLocations then Reopened
    else if s.currentCoolingDown then StillCooling
    else if confirmed then Explored
    else Declined
  }

  /** The state after the click; `now` is the clock when it happens. */
  function Explore(s: State, num: int, now: int, confirmed: bool): (r: State)
  {
    if Decide(s, num, confirmed) == Explored then
      s.(visitedLocations := s.visitedLocations + [num], currentCoolingDown := true, lastExploration := now)
    else s
  }

  /** Whether the document of the location is opened in a new tab. */
  predicate OpensDocument(o: ExploreOutcome)
  {
    o == Reopened || o == Explored
  }

  /** The tick at time `now`: the cooldown ends once ten minutes have passed
      since the last exploration. */
  function Tick(s: State, now: int): (r: State)
  {
    if s.currentCoolingDown && now - s.lastExploration >= COOLDOWN_MS then s.(currentCoolingDown := false)
    else s
  }

  /** Button `i` is disabled when it leads somewhere new during a cooldown. */
  predicate ButtonDisabled(s: State, i: int)
  {
    i !in s.visitedLocations && s.currentCoolingDown
  }

  /** The disabled flag of buttons 6..10, in order. */
  function LocationButtons(s: State): (b: seq<bool>)
    ensures |b| == LAST_LOCATION - FIRST_LOCATION + 1
    ensures forall k :: 0 <= k < |b| ==> (b[k] <==> ButtonDisabled(s, FIRST_LOCATION + k))
  {
    seq(LAST_LOCATION - FIRST_LOCATION + 1, k => ButtonDisabled(s, FIRST_LOCATION + k))
  }

  // ---------------------------------------------------------------------------
  // Properties of exploring
  // ---------------------------------------------------------------------------

  /** A visited location can always be reopened, cooldown or not, and
      reopening changes nothing. */
  lemma RevisitIsFree(s: State, num: int, now: int, confirmed: bool)
    requires num in s.visitedLocations
    ensures Decide(s, num, confirmed) == Reopened
    ensures Explore(s, num, now, confirmed) == s
  {
  }

  /** The state changes exactly when a new location is explored; then the
      location is appended once, the cooldown is on and its start is `now`. */
  lemma ExploreChangesOnlyOnExplored(s: State, num: int, now: int, confirmed: bool)
    ensures Explore(s, num, now, confirmed) != s <==> Decide(s, num, confirmed) == Explored
    ensures Decide(s, num, confirmed) == Explored <==>
              num !in s.visitedLocations && !s.currentCoolingDown && confirmed
    ensures Decide(s, num, confirmed) == Explored ==>
              var r := Explore(s, num, now, confirmed);
              r.visitedLocations == s.visitedLocations + [num] && r.currentCoolingDown && r.lastExploration == now
  {
    if Decide(s, num, confirmed) == Explored {
      var r := Explore(s, num, now, confirmed);
      assert num in r.visitedLocations && num !in s.visitedLocations;
    }
  }

  /** The visited list only grows, by at most one location, and never
      holds a location twice. */
  lemma ExploreKeepsVisitedDistinct(s: State, num: int, now: int, confirmed: bool)
    requires NoDup(s.visitedLocations)
    ensures var r := Explore(s, num, now, confirmed);
      NoDup(r.visitedLocations) &&
      s.visitedLocations <= r.visitedLocations &&
      |r.visitedLocations| <= |s.visitedLocations| + 1
  {
    var r := Explore(s, num, now, confirmed);
    if Decide(s, num, confirmed) == Explored {
      assert r.visitedLocations == s.visitedLocations + [num];
      assert num !in s.visitedLocations;
    }
  }

  /** A new location is refused by the click handler exactly when its button
      is shown disabled. */
  lemma DisabledMeansRefused(s: State, num: int, confirmed: bool)
    ensures ButtonDisabled(s, num) <==> Decide(s, num, confirmed) == StillCooling
  {
  }

  /** Between two ticks at most one new location can be explored: right after
      an exploration, every other unvisited location is refused. */
  lemma OneNewLocationPerCooldown(s: State, a: int, b: int, now: int, confirmed: bool)
    requires Decide(s, a, true) == Explored
    requires b !in s.visitedLocations && b != a
    ensures Decide(Explore(s, a, now, true), b, confirmed) == StillCooling
  {
    var r := Explore(s, a, now, true);
    assert r.visitedLocations == s.visitedLocations + [a];
    assert b !in r.visitedLocations;
  }

  // ---------------------------------------------------------------------------
  // Properties of the tick
  // ---------------------------------------------------------------------------

  /** The tick only ever switches the cooldown off, and does so exactly when
      it was on and ten minutes have passed. */
  lemma TickClears(s: State, now: int)
    ensures Tick(s, now) == s.(currentCoolingDown := Tick(s, now).currentCoolingDown)
    ensures Tick(s, now).currentCoolingDown <==>
              s.currentCoolingDown && now - s.lastExploration < COOLDOWN_MS
    ensures Tick(s, now) != s <==> s.currentCoolingDown && now - s.lastExploration >= COOLDOWN_MS
  {
  }

  /** Running the tick twice at the same instant is the same as once. */
  lemma TickIdempotent(s: State, now: int)
    ensures Tick(Tick(s, now), now) == Tick(s, now)
  {
  }

  /** Once a tick has ended the cooldown, later ticks keep it ended. */
  lemma TickMonotone(s: State, t1: int, t2: int)
    requires t1 <= t2
    ensures !Tick(s, t1).currentCoolingDown ==> !Tick(Tick(s, t1), t2).currentCoolingDown
    ensures !Tick(s, t1).currentCoolingDown ==> !Tick(s, t2).currentCoolingDown
  {
  }

  /** After exploring a new location at time `t`, a tick at `t2` leaves the
      cooldown on exactly when fewer than ten minutes have passed. */
  lemma CooldownLastsTenMinutes(s: State, num: int, t: int, t2: int)
    requires Decide(s, num, true) == Explored
    ensures Tick(Explore(s, num, t, true), t2).currentCoolingDown <==> t2 - t < COOLDOWN_MS
    ensures t2 - t >= COOLDOWN_MS ==>
              forall m :: m !in Explore(s, num, t, true).visitedLocations ==>
                Decide(Tick(Explore(s, num, t, true), t2), m, true) == Explored
  {
  }

  // ---------------------------------------------------------------------------
  // The clock readout
  // ---------------------------------------------------------------------------

  /** JavaScript's `%`, which keeps the sign of the dividend. */
  function JsRem(a: int, b: int): (r: int)
    requires b > 0
    ensures -b < r < b
    ensures a >= 0 ==> 0 <= r
    ensures a < 0 ==> r <= 0
  {
    if a >= 0 then a % b else -((-a) % b)
  }

  /** Minutes and seconds as the readout shows them. */
  datatype Clock = Clock(minutes: int, seconds: int)

  /** `Math.floor(ms / 60000)` and `Math.floor((ms % 60000) / 1000)`. */
  function ToClock(ms: int): Clock
  {
    Clock(ms / 60000, JsRem(ms, 60000) / 1000)
  }

  /** For a non-negative duration the readout is the duration truncated to
      whole seconds, with the seconds field below sixty. */
  lemma ToClockExact(ms: int)
    requires ms >= 0
    ensures 0 <= ToClock(ms).seconds < 60 && ToClock(ms).minutes >= 0
    ensures var c := ToClock(ms);
      c.minutes * 60000 + c.seconds * 1000 <= ms < c.minutes * 60000 + c.seconds * 1000 + 1000
  {
    var q := ms / 60000;
    var r := ms % 60000;
    assert ms == q * 60000 + r;
    assert JsRem(ms, 60000) == r;
    var sec := r / 1000;
    assert r == sec * 1000 + r % 1000;
  }

  /** The text of the timer line: time since the game began, and the time
      left in the cooldown when one is running. */
  datatype Readout = Readout(elapsed: Clock, remaining: Option<Clock>)

  /** The readout at time `now`. A start time of 0 counts as "now". */
  function TimerReadout(s: State, now: int): Readout
  {
    var diff := now - s.lastExploration;
    var elapsed := now - (if s.startTime == 0 then now else s.startTime);
    Readout(
      ToClock(elapsed),
      if s.currentCoolingDown && diff < COOLDOWN_MS then Some(ToClock(COOLDOWN_MS - diff)) else None)
  }

  /** The countdown is shown exactly while the tick at the same instant would
      leave the cooldown on, and then it is the time left truncated to whole
      seconds. */
  lemma CountdownMatchesTick(s: State, now: int)
    ensures TimerReadout(s, now).remaining.Some? <==> Tick(s, now).currentCoolingDown
    ensures TimerReadout(s, now).remaining.Some? ==>
              var c := TimerReadout(s, now).remaining.value;
              c.minutes * 60000 + c.seconds * 1000 <= COOLDOWN_MS - (now - s.lastExploration) <
                c.minutes * 60000 + c.seconds * 1000 + 1000
    ensures now >= s.lastExploration && TimerReadout(s, now).remaining.Some? ==>
              var c := TimerReadout(s, now).remaining.value;
              0 <= c.minutes * 60000 + c.seconds * 1000 < COOLDOWN_MS + 1000
  {
    if TimerReadout(s, now).remaining.Some? {
      ToClockExact(COOLDOWN_MS - (now - s.lastExploration));
    }
  }

  /** With no recorded start time the elapsed clock reads 0:00. */
  lemma ElapsedWithoutStart(s: State, now: int)
    requires s.startTime == 0
    ensures TimerReadout(s, now).elapsed == Clock(0, 0)
  {
  }
}

=== FILE: evidence.dfy ===
/**
 * Evidence: the scenario's definitions, the owned list (ids in discovery
 * order), the two passes that grant evidence (the keyword pass run after
 * every AI reply, and the "start" pass run on every load), and the list of
 * known evidence written into the system prompt.
 */
module Evidence {
  import opened Wrappers
  import opened Text

  /** One entry of the scenario's `evidences` array. */
  datatype EvidenceDef = EvidenceDef(id: string, name: string, description: string, unlockCondition: string)

  /** The sentinel condition of evidence owned from the start. */
  const START := "start"

  predicate NoDup<T(==)>(s: seq<T>)
  {
    forall i, j :: 0 <= i < j < |s| ==> s[i] != s[j]
  }

  /** `addEvidence`: the id is appended unless it is already owned. */
  function AddId(owned: seq<string>, id: string): (r: seq<string>)
    ensures owned <= r && |r| <= |owned| + 1
    ensures forall x :: x in r <==> x in owned || x == id
    ensures NoDup(owned) ==> NoDup(r)
    ensures id in owned ==> r == owned
  {
    if id in owned then owned else owned + [id]
  }

  /** Adding the same evidence again is a no-op. */
  lemma AddIdTwice(owned: seq<string>, id: string)
    ensures AddId(AddId(owned, id), id) == AddId(owned, id)
  {
  }

  // ---------------------------------------------------------------------------
  // Unlock conditions
  // ---------------------------------------------------------------------------

  /** The condition `"<charId>:<keyword>"` of `ev` is met: it is not the start
      sentinel, splitting it on `:` gives exactly two parts, the first is the
      character being questioned, and the AI's reply contains the second. The
      keyword is one substring: a `|` in it is matched literally. */
  predicate KeywordUnlocks(ev: EvidenceDef, current: Option<string>, aiText: string)
  {
    ev.unlockCondition != START
    && var parts := Split(ev.unlockCondition, ':');
    |parts| == 2 && current == Some(parts[0]) && Contains(aiText, parts[1])
  }

  /** Which pass is granting: the one on load, or the one after an AI reply. */
  datatype Rule = StartRule | KeywordRule(current: Option<string>, aiText: string)

  predicate Wants(rule: Rule, ev: EvidenceDef)
  {
    match rule
    case StartRule => ev.unlockCondition == START
    case KeywordRule(current, aiText) => KeywordUnlocks(ev, current, aiText)
  }

  /** One iteration of the pass: a wanted definition not yet owned is added. */
  function Step(owned: seq<string>, ev: EvidenceDef, rule: Rule): seq<string>
  {
    if ev.id !in owned && Wants(rule, ev) then AddId(owned, ev.id) else owned
  }

  /** A wanted definition that is not owned yet is appended. */
  lemma StepAdds(owned: seq<string>, ev: EvidenceDef, rule: Rule)
    requires ev.id !in owned && Wants(rule, ev)
    ensures Step(owned, ev, rule) == owned + [ev.id]
  {
  }

  /** A pass over the definitions in scenario order, one Step each. */
  function Collect(owned: seq<string>, evs: seq<EvidenceDef>, rule: Rule): (r: seq<string>)
    ensures owned <= r
    ensures NoDup(owned) ==> NoDup(r)
    decreases |evs|
  {
    if evs == [] then owned
    else Step(Collect(owned, evs[..|evs| - 1], rule), evs[|evs| - 1], rule)
  }

  /** A pass over one more definition is one more Step. */
  lemma CollectSnoc(owned: seq<string>, evs: seq<EvidenceDef>, ev: EvidenceDef, rule: Rule)
    ensures Collect(owned, evs + [ev], rule) == Step(Collect(owned, evs, rule), ev, rule)
  {
    assert (evs + [ev])[..|evs|] == evs;
  }

  /** Some definition with id `x` is wanted by the rule. */
  predicate WantedId(evs: seq<EvidenceDef>, rule: Rule, x: string)
  {
    exists k :: 0 <= k < |evs| && evs[k].id == x && Wants(rule, evs[k])
  }

  lemma WantedIdSnoc(evs: seq<EvidenceDef>, rule: Rule, x: string)
    requires evs != []
    ensures WantedId(evs, rule, x)
        <==> WantedId(evs[..|evs| - 1], rule, x) || (evs[|evs| - 1].id == x && Wants(rule, evs[|evs| - 1]))
  {
    var n := |evs| - 1;
    if WantedId(evs[..n], rule, x) {
      WantedIdInPrefix(evs, n, rule, x);
    }
    if evs[n].id == x && Wants(rule, evs[n]) {
      WantedIdWitness(evs, n, rule, x);
    }
    if WantedId(evs, rule, x) {
      var k :| 0 <= k < |evs| && evs[k].id == x && Wants(rule, evs[k]);
      if k < n {
        assert evs[..n][k] == evs[k];
        WantedIdWitness(evs[..n], k, rule, x);
      }
    }
  }

  /** A witness at index `k` of the prefix is a witness in the whole list. */
  lemma WantedIdInPrefix(evs: seq<EvidenceDef>, n: nat, rule: Rule, x: string)
    requires n <= |evs| && WantedId(evs[..n], rule, x)
    ensures WantedId(evs, rule, x)
  {
    var k :| 0 <= k < n && evs[..n][k].id == x && Wants(rule, evs[..n][k]);
    assert evs[k] == evs[..n][k];
  }

  /** A single index where the id is wanted is enough. */
  lemma WantedIdWitness(evs: seq<EvidenceDef>, k: nat, rule: Rule, x: string)
    requires k < |evs| && evs[k].id == x && Wants(rule, evs[k])
    ensures WantedId(evs, rule, x)
  {
  }

  /** An id is owned after the pass exactly when it was owned before or some
      definition with that id is wanted by the rule. */
  lemma {:induction false} CollectMembers(owned: seq<string>, evs: seq<EvidenceDef>, rule: Rule, x: string)
    ensures x in Collect(owned, evs, rule) <==> x in owned || WantedId(evs, rule, x)
    decreases |evs|
  {
    if evs != [] {
      var n := |evs| - 1;
      CollectMembers(owned, evs[..n], rule, x);
      WantedIdSnoc(evs, rule, x);
    }
  }

  /** When every wanted id is already owned, the pass changes nothing. */
  lemma {:induction false} CollectStable(owned: seq<string>, evs: seq<EvidenceDef>, rule: Rule)
    requires forall k :: 0 <= k < |evs| && Wants(rule, evs[k]) ==> evs[k].id in owned
    ensures Collect(owned, evs, rule) == owned
    decreases |evs|
  {
    if evs != [] {
      var n := |evs| - 1;
      forall k | 0 <= k < n && Wants(rule, evs[..n][k]) ensures evs[..n][k].id in owned {
        assert evs[..n][k] == evs[k];
      }
      CollectStable(owned, evs[..n], rule);
    }
  }

  /** Running a pass twice is running it once. */
  lemma CollectIdempotent(owned: seq<string>, evs: seq<EvidenceDef>, rule: Rule)
    ensures Collect(Collect(owned, evs, rule), evs, rule) == Collect(owned, evs, rule)
  {
    var once := Collect(owned, evs, rule);
    forall k | 0 <= k < |evs| && Wants(rule, evs[k]) ensures evs[k].id in once {
      assert WantedId(evs, rule, evs[k].id);
      CollectMembers(owned, evs, rule, evs[k].id);
    }
    CollectStable(once, evs, rule);
  }

  /** The pass is one left-to-right walk: over two consecutive runs of
      definitions it is the pass over the first followed by the pass over the
      second, so ids are appended in scenario order. */
  lemma {:induction false} CollectAppend(owned: seq<string>, evs1: seq<EvidenceDef>, evs2: seq<EvidenceDef>, rule: Rule)
    ensures Collect(owned, evs1 + evs2, rule) == Collect(Collect(owned, evs1, rule), evs2, rule)
    decreases |evs2|
  {
    if evs2 == [] {
      assert evs1 + evs2 == evs1;
    } else {
      var n := |evs2| - 1;
      assert (evs1 + evs2)[..|evs1 + evs2| - 1] == evs1 + evs2[..n];
      CollectAppend(owned, evs1, evs2[..n], rule);
    }
  }

  /** The granted ids are new and pairwise distinct, even when the owned list
      loaded from storage was not. */
  lemma {:induction false} CollectAddsFresh(owned: seq<string>, evs: seq<EvidenceDef>, rule: Rule)
    ensures var r := Collect(owned, evs, rule);
      NoDup(r[|owned|..]) && forall k :: |owned| <= k < |r| ==> r[k] !in owned
    decreases |evs|
  {
    if evs != [] {
      var n := |evs| - 1;
      CollectAddsFresh(owned, evs[..n], rule);
      var before := Collect(owned, evs[..n], rule);
      var r := Collect(owned, evs, rule);
      if r != before {
        assert r == before + [evs[n].id];
        assert r[|owned|..] == before[|owned|..] + [evs[n].id];
        assert evs[n].id !in owned;
      }
    }
  }

  /** The keyword pass run after an AI reply (`checkEvidenceUnlock`). */
  function UnlockPass(owned: seq<string>, evs: seq<EvidenceDef>, current: Option<string>, aiText: string): seq<string>
  {
    Collect(owned, evs, KeywordRule(current, aiText))
  }

  /** The start pass run on every load (`loadState`). */
  function GrantStart(owned: seq<string>, evs: seq<EvidenceDef>): seq<string>
  {
    Collect(owned, evs, StartRule)
  }

  /** After the keyword pass an id is owned exactly when it was owned before
      or some definition with that id has its condition met by this reply. */
  lemma UnlockPassMembers(owned: seq<string>, evs: seq<EvidenceDef>, current: Option<string>, aiText: string, x: string)
    ensures x in UnlockPass(owned, evs, current, aiText)
        <==> x in owned || exists k :: 0 <= k < |evs| && evs[k].id == x && KeywordUnlocks(evs[k], current, aiText)
  {
    CollectMembers(owned, evs, KeywordRule(current, aiText), x);
    assert WantedId(evs, KeywordRule(current, aiText), x)
        <==> exists k :: 0 <= k < |evs| && evs[k].id == x && KeywordUnlocks(evs[k], current, aiText);
  }

  /** After loading, every start evidence is owned, and nothing else was added. */
  lemma GrantStartMembers(owned: seq<string>, evs: seq<EvidenceDef>, x: string)
    ensures x in GrantStart(owned, evs)
        <==> x in owned || exists k :: 0 <= k < |evs| && evs[k].id == x && evs[k].unlockCondition == START
  {
    CollectMembers(owned, evs, StartRule, x);
    assert WantedId(evs, StartRule, x)
        <==> exists k :: 0 <= k < |evs| && evs[k].id == x && evs[k].unlockCondition == START;
  }

  /** The condition `"yotsuba:鍵"` is met by a reply from yotsuba that
      mentions the key. */
  lemma KeywordExample(aiText: string)
    requires Contains(aiText, "鍵")
    ensures KeywordUnlocks(EvidenceDef("e2", "鍵", "", "yotsuba:鍵"), Some("yotsuba"), aiText)
  {
    assert "yotsuba:鍵" == Join(["yotsuba", "鍵"], ':');
    SplitJoin(["yotsuba", "鍵"], ':');
  }

  // ---------------------------------------------------------------------------
  // Known evidence, as listed in the system prompt
  // ---------------------------------------------------------------------------

  /** `scenario.evidences.find(ev => ev.id === id)`: the first definition with that id. */
  function FindDef(defs: seq<EvidenceDef>, id: string): (r: Option<EvidenceDef>)
    ensures r.Some? ==> r.value in defs && r.value.id == id
    ensures r.None? ==> forall d :: d in defs ==> d.id != id
  {
    if defs == [] then None
    else if defs[0].id == id then Some(defs[0])
    else FindDef(defs[1..], id)
  }

  /** The line `- <name>: <description>` for one piece of evidence. */
  function EvidenceLine(d: EvidenceDef): string
  {
    "- " + d.name + ": " + d.description
  }

  /** One line per owned id that has a definition, in discovery order; ids
      without a definition are dropped. */
  function KnownLines(owned: seq<string>, defs: seq<EvidenceDef>): (lines: seq<string>)
    ensures |lines| <= |owned|
  {
    if owned == [] then []
    else
      var head := match FindDef(defs, owned[0])
        case Some(d) => [EvidenceLine(d)]
        case None => [];
      head + KnownLines(owned[1..], defs)
  }

  /** The known-evidence block of the prompt: the lines joined by newlines. */
  function KnownEvidence(owned: seq<string>, defs: seq<EvidenceDef>): string
  {
    Join(KnownLines(owned, defs), '\n')
  }

  /** Every line describes a definition of the scenario. */
  lemma {:induction false} KnownLinesFromDefs(owned: seq<string>, defs: seq<EvidenceDef>, k: nat)
    requires k < |KnownLines(owned, defs)|
    ensures exists d :: d in defs && KnownLines(owned, defs)[k] == EvidenceLine(d)
    decreases |owned|
  {
    var lines := KnownLines(owned, defs);
    var rest := KnownLines(owned[1..], defs);
    match FindDef(defs, owned[0])
    case Some(d) =>
      if k == 0 {
        assert lines[0] == EvidenceLine(d);
      } else {
        KnownLinesFromDefs(owned[1..], defs, k - 1);
        assert lines[k] == rest[k - 1];
      }
    case None =>
      KnownLinesFromDefs(owned[1..], defs, k);
      assert lines[k] == rest[k];
  }

  /** When every owned id has a definition, the k-th line describes the k-th
      owned evidence. */
  lemma {:induction false} KnownLinesInOrder(owned: seq<string>, defs: seq<EvidenceDef>)
    requires forall x :: x in owned ==> FindDef(defs, x).Some?
    ensures |KnownLines(owned, defs)| == |owned|
    ensures forall k :: 0 <= k < |owned| ==> KnownLines(owned, defs)[k] == EvidenceLine(FindDef(defs, owned[k]).value)
    decreases |owned|
  {
    if owned != [] {
      assert owned[0] in owned;
      forall x | x in owned[1..] ensures FindDef(defs, x).Some? {
        assert x in owned;
      }
      KnownLinesInOrder(owned[1..], defs);
      forall k | 0 <= k < |owned| ensures KnownLines(owned, defs)[k] == EvidenceLine(FindDef(defs, owned[k]).value) {
        if k > 0 {
          assert owned[k] == owned[1..][k - 1];
        }
      }
    }
  }

  /** The block of two runs of owned ids is the block of the first run
      followed by the block of the second. */
  lemma {:induction false} KnownLinesAppend(a: seq<string>, b: seq<string>, defs: seq<EvidenceDef>)
    ensures KnownLines(a + b, defs) == KnownLines(a, defs) + KnownLines(b, defs)
    decreases |a|
  {
    if a == [] {
      assert a + b == b;
    } else {
      assert (a + b)[0] == a[0];
      assert (a + b)[1..] == a[1..] + b;
      KnownLinesAppend(a[1..], b, defs);
    }
  }

  /** An id without a definition adds no line, wherever it stands. */
  lemma KnownLinesSkipsUndefined(a: seq<string>, x: string, b: seq<string>, defs: seq<EvidenceDef>)
    requires FindDef(defs, x).None?
    ensures KnownLines(a + [x] + b, defs) == KnownLines(a + b, defs)
  {
    KnownLinesAppend(a + [x], b, defs);
    KnownLinesAppend(a, [x], defs);
    KnownLinesAppend(a, b, defs);
    assert [x][1..] == [];
  }

  /** With names and descriptions on one line each, the prompt block splits
      back into exactly the evidence lines. */
  lemma KnownEvidenceSplits(owned: seq<string>, defs: seq<EvidenceDef>)
    requires forall d :: d in defs ==> '\n' !in d.name && '\n' !in d.description
    requires KnownLines(owned, defs) != []
    ensures Split(KnownEvidence(owned, defs), '\n') == KnownLines(owned, defs)
  {
    var lines := KnownLines(owned, defs);
    forall k | 0 <= k < |lines| ensures '\n' !in lines[k] {
      KnownLinesFromDefs(owned, defs, k);
      var d :| d in defs && lines[k] == EvidenceLine(d);
      assert EvidenceLine(d) == "- " + d.name + ": " + d.description;
    }
    SplitJoin(lines, '\n');
  }
}

=== FILE: game.dfy ===
/**
 * The `Game` object of game.js: the character being questioned, the
 * "waiting for the AI" flag, the progress record and the browser storage it
 * is saved to. Each method changes these fields as the corresponding
 * JavaScript method does, and is specified by the functions of the
 * GameState, Evidence and Cooldown modules.
 */
module Session {
  import opened Wrappers
  import opened Text
  import opened Reply
  import opened Evidence
  import opened GameState
  import opened Cooldown

  /** The outcome of one request to the AI: the reply text, or a failure. */
  datatype AiReply = Replied(text: string) | Failed

  /** What a message passes to `sendToAI`: the trimmed message and the last
      ten entries of the character's history, which already end with it. The
      client ignores the window (ai.js:27 takes only the prompt and the
      message), so the AI never sees the history. */
  datatype Request = Request(text: string, recent: seq<Entry>)

  /** The record's bookkeeping invariant: no evidence and no location twice. */
  predicate Consistent(s: State)
  {
    NoDup(s.evidences) && NoDup(s.visitedLocations)
  }

  class Game {
    /** The loaded scenario's `evidences` table. */
    const evidenceDefs: seq<EvidenceDef>
    /** The character being questioned; None outside the interrogation room. */
    var currentCharacterId: Option<string>
    /** True from sending a message until its reply (or failure) is handled. */
    var isAiThinking: bool
    var state: State
    /** What the browser holds under the game's storage key; None when empty. */
    var storage: Option<Saved>

    /** A game with the default record, started at `now`, over a scenario
        already loaded, in a browser whose storage holds `stored`. */
    constructor(defs: seq<EvidenceDef>, stored: Option<Saved>, now: int)
      ensures evidenceDefs == defs && currentCharacterId == None && !isAiThinking
      ensures state == Defaults(now) && storage == stored
      ensures Consistent(state)
    {
      evidenceDefs := defs;
      currentCharacterId := None;
      isAiThinking := false;
      state := Defaults(now);
      storage := stored;
    }

    /** Writes the whole record to storage. */
    method SaveState()
      modifies this`storage
      ensures storage == Some(Snapshot(state))
    {
      storage := Some(Snapshot(state));
    }

    /** Switches between detective and master mode and saves. */
    method SetDifficulty(mode: Difficulty)
      modifies this`state, this`storage
      ensures state == old(state).(difficulty := mode)
      ensures storage == Some(Snapshot(state))
    {
      state := state.(difficulty := mode);
      SaveState();
    }

    /** Records a message under the current character (the key "null" when
        none is selected), splitting a model reply into its two voices, and
        saves. */
    method AppendMessage(role: Role, text: string)
      modifies this`state, this`storage
      ensures state == Appended(old(state), HistoryKey(currentCharacterId), MakeEntry(role, text))
      ensures storage == Some(Snapshot(state))
    {
      var key := HistoryKey(currentCharacterId);
      var displayOuter := text;
      var displayInner := "";
      if role == Model {
        var voices := ParseReply(text);
        displayOuter := voices.outer;
        displayInner := voices.inner;
      }
      var entries := if key in state.history then state.history[key] else [];
      state := state.(history := state.history[key := entries + [Entry(role, text, displayOuter, displayInner)]]);
      SaveState();
    }

    /** Restores the saved record over the current one key by key, then grants
        every "start" evidence not yet owned, in scenario order. Nothing is
        saved. */
    method LoadState()
      modifies this`state
      ensures var merged := if old(storage).Some? then Merge(old(state), old(storage).value) else old(state);
        state == merged.(evidences := GrantStart(merged.evidences, evidenceDefs)) &&
        (NoDup(merged.evidences) ==> NoDup(state.evidences))
    {
      if storage.Some? {
        state := Merge(state, storage.value);
      }
      ghost var merged := state;
      var i := 0;
      while i < |evidenceDefs|
        invariant 0 <= i <= |evidenceDefs|
        invariant state == merged.(evidences := Collect(merged.evidences, evidenceDefs[..i], StartRule))
      {
        var ev := evidenceDefs[i];
        if ev.unlockCondition == START && ev.id !in state.evidences {
          state := state.(evidences := state.evidences + [ev.id]);
        }
        assert evidenceDefs[..i + 1] == evidenceDefs[..i] + [ev];
        i := i + 1;
      }
      assert evidenceDefs[..i] == evidenceDefs;
    }

    /** Adds one piece of evidence unless it is already owned; a new one is
        saved and its name is returned for the cut-in banner when the scenario
        defines it. */
    method AddEvidence(id: string) returns (cutin: Option<string>)
      modifies this`state, this`storage
      ensures state == old(state).(evidences := AddId(old(state).evidences, id))
      ensures id in old(state).evidences ==> storage == old(storage) && cutin == None
      ensures id !in old(state).evidences ==> storage == Some(Snapshot(state))
      ensures id !in old(state).evidences ==>
        cutin == if FindDef(evidenceDefs, id).Some? then Some(FindDef(evidenceDefs, id).value.name) else None
    {
      cutin := None;
      if id !in state.evidences {
        state := state.(evidences := state.evidences + [id]);
        SaveState();
        var ev := FindDef(evidenceDefs, id);
        if ev.Some? {
          cutin := Some(ev.value.name);
        }
      }
    }

    /** The keyword pass after an AI reply: walks the scenario's definitions
        in order and adds each one whose condition names the current
        character and a keyword the reply contains. The user's own text is
        not consulted. Storage is written when something was added. */
    method CheckEvidenceUnlock(userText: string, aiText: string)
      modifies this`state, this`storage
      ensures state == old(state).(evidences := UnlockPass(old(state).evidences, evidenceDefs, currentCharacterId, aiText))
      ensures state.evidences == old(state).evidences ==> storage == old(storage)
      ensures state.evidences != old(state).evidences ==> storage == Some(Snapshot(state))
    {
      ghost var start := state;
      ghost var rule := KeywordRule(currentCharacterId, aiText);
      var i := 0;
      while i < |evidenceDefs|
        invariant 0 <= i <= |evidenceDefs|
        invariant state == start.(evidences := Collect(start.evidences, evidenceDefs[..i], rule))
        invariant |state.evidences| == |start.evidences| ==> storage == old(storage)
        invariant |state.evidences| != |start.evidences| ==> storage == Some(Snapshot(state))
      {
        var ev := evidenceDefs[i];
        ghost var before := state.evidences;
        if ev.id !in state.evidences && ev.unlockCondition != START {
          var parts := Split(ev.unlockCondition, ':');
          if |parts| == 2 && currentCharacterId == Some(parts[0]) && Contains(aiText, parts[1]) {
            var _ := AddEvidence(ev.id);
          }
        }
        assert state.evidences == Step(before, ev, rule);
        assert evidenceDefs[..i + 1] == evidenceDefs[..i] + [ev];
        i := i + 1;
      }
      assert evidenceDefs[..i] == evidenceDefs;
    }

    /** The once-a-second check: ends the cooldown ten minutes after the last
        exploration, saving when it does, and returns the disabled flags of
        the location buttons 6..10. */
    method CheckLocationUnlocks(now: int) returns (disabled: seq<bool>)
      modifies this`state, this`storage
      ensures state == Tick(old(state), now)
      ensures state == old(state) ==> storage == old(storage)
      ensures state != old(state) ==> storage == Some(Snapshot(state))
      ensures disabled == LocationButtons(state)
    {
      if state.currentCoolingDown && now - state.lastExploration >= COOLDOWN_MS {
        state := state.(currentCoolingDown := false);
        SaveState();
      }
      disabled := [];
      var i := FIRST_LOCATION;
      while i <= LAST_LOCATION
        invariant FIRST_LOCATION <= i <= LAST_LOCATION + 1
        invariant |disabled| == i - FIRST_LOCATION
        invariant forall k :: 0 <= k < |disabled| ==> (disabled[k] <==> ButtonDisabled(state, FIRST_LOCATION + k))
      {
        var visited := i in state.visitedLocations;
        disabled := disabled + [!visited && state.currentCoolingDown];
        i := i + 1;
      }
    }

    /** A click on location `num` at time `now`; `confirmed` is the player's
        answer to the confirmation dialog. */
    method ExploreLocation(num: int, now: int, confirmed: bool) returns (outcome: ExploreOutcome, opens: bool)
      modifies this`state, this`storage
      ensures outcome == Decide(old(state), num, confirmed)
      ensures opens <==> OpensDocument(outcome)
      ensures state == Explore(old(state), num, now, confirmed)
      ensures outcome == Explored ==> storage == Some(Snapshot(state))
      ensures outcome != Explored ==> storage == old(storage)
      ensures Consistent(old(state)) ==> Consistent(state)
    {
      if num in state.visitedLocations {
        outcome, opens := Reopened, true;
        return;
      }
      if state.currentCoolingDown {
        outcome, opens := StillCooling, false;
        return;
      }
      if confirmed {
        state := state.(visitedLocations := state.visitedLocations + [num],
                        currentCoolingDown := true,
                        lastExploration := now);
        SaveState();
        outcome := Explored;
      } else {
        outcome := Declined;
      }
      opens := outcome == Reopened || outcome == Explored;
      if Consistent(old(state)) {
        ExploreKeepsVisitedDistinct(old(state), num, now, confirmed);
      }
    }

    /** Enters the interrogation room of `charId`. */
    method OpenInterrogation(charId: string)
      modifies this`currentCharacterId
      ensures currentCharacterId == Some(charId)
    {
      currentCharacterId := Some(charId);
    }

    /** Leaves the interrogation room. */
    method CloseInterrogation()
      modifies this`currentCharacterId
      ensures currentCharacterId == None
    {
      currentCharacterId := None;
    }

    /** The synchronous first half of sending a message: an empty (after
        trimming) message, or one sent while a reply is awaited, is ignored;
        otherwise the flag is raised, the message is recorded and the
        request for the AI is built. */
    method BeginTurn(input: string) returns (request: Option<Request>)
      modifies this`isAiThinking, this`state, this`storage
      ensures var text := Trim(input);
        if text == [] || old(isAiThinking) then
          request == None && isAiThinking == old(isAiThinking) && state == old(state) && storage == old(storage)
        else
          isAiThinking &&
          state == Appended(old(state), HistoryKey(currentCharacterId), MakeEntry(User, text)) &&
          storage == Some(Snapshot(state)) &&
          request == Some(Request(text, RecentHistory(HistoryOf(state, HistoryKey(currentCharacterId)))))
      ensures request.Some? ==>
        1 <= |request.value.recent| <= HISTORY_WINDOW &&
        request.value.recent[|request.value.recent| - 1] == MakeEntry(User, request.value.text)
    {
      var text := Trim(input);
      if text == [] || isAiThinking {
        return None;
      }
      isAiThinking := true;
      RecentEndsWithLast(HistoryOf(state, HistoryKey(currentCharacterId)), MakeEntry(User, text));
      AppendMessage(User, text);
      var history := HistoryOf(state, HistoryKey(currentCharacterId));
      request := Some(Request(text, RecentHistory(history)));
    }

    /** The second half, when the AI has answered: a reply is recorded under
        the character selected at that moment and run through the keyword
        pass; a failure records nothing. The flag is lowered either way. */
    method CompleteTurn(text: string, reply: AiReply)
      modifies this`isAiThinking, this`state, this`storage
      ensures !isAiThinking
      ensures reply.Failed? ==> state == old(state) && storage == old(storage)
      ensures reply.Replied? ==>
        var withReply := Appended(old(state), HistoryKey(currentCharacterId), MakeEntry(Model, reply.text));
        state == withReply.(evidences := UnlockPass(withReply.evidences, evidenceDefs, currentCharacterId, reply.text)) &&
        storage == Some(Snapshot(state))
    {
      if reply.Replied? {
        AppendMessage(Model, reply.text);
        CheckEvidenceUnlock(text, reply.text);
      }
      isAiThinking := false;
    }

    /** A whole message exchange with no other event in between: the user's
        message and, when the AI answers, its reply are appended to the
        character's history, and the reply may unlock evidence. */
    method SendMessage(input: string, reply: AiReply) returns (request: Option<Request>)
      modifies this`isAiThinking, this`state, this`storage
      ensures request.None? <==> Trim(input) == [] || old(isAiThinking)
      ensures request.None? ==> state == old(state) && storage == old(storage) && isAiThinking == old(isAiThinking)
      ensures request.Some? ==>
        !isAiThinking &&
        state == Turn(old(state), HistoryKey(currentCharacterId), currentCharacterId, evidenceDefs, Trim(input), reply) &&
        storage == Some(Snapshot(state))
      ensures Consistent(old(state)) ==> Consistent(state)
    {
      request := BeginTurn(input);
      if request.Some? {
        CompleteTurn(request.value.text, reply);
        TurnEvidence(old(state), HistoryKey(currentCharacterId), currentCharacterId, evidenceDefs, Trim(input), reply);
      }
    }
  }

  /** The record after one uninterrupted exchange on history `key`: the
      user's message, then, when the AI answers, its reply and the keyword
      pass over it. */
  function Turn(s: State, key: string, current: Option<string>, defs: seq<EvidenceDef>,
                text: string, reply: AiReply): State
  {
    var asked := Appended(s, key, MakeEntry(User, text));
    match reply
    case Failed => asked
    case Replied(answer) =>
      var answered := Appended(asked, key, MakeEntry(Model, answer));
      answered.(evidences := UnlockPass(answered.evidences, defs, current, answer))
  }

  /** A turn appends the user's entry and, on a reply, the model's entry to
      one history; every other history and every other part of the record
      except the evidence list is unchanged. */
  lemma TurnHistory(s: State, key: string, current: Option<string>, defs: seq<EvidenceDef>,
                    text: string, reply: AiReply)
    ensures var r := Turn(s, key, current, defs, text, reply);
      HistoryOf(r, key) == HistoryOf(s, key) + [MakeEntry(User, text)] +
        (if reply.Replied? then [MakeEntry(Model, reply.text)] else []) &&
      (forall k :: k != key ==> HistoryOf(r, k) == HistoryOf(s, k)) &&
      r.(history := s.history, evidences := s.evidences) == s
  {
    var asked := Appended(s, key, MakeEntry(User, text));
    if reply.Replied? {
      var answered := Appended(asked, key, MakeEntry(Model, reply.text));
      assert HistoryOf(answered.(evidences := UnlockPass(answered.evidences, defs, current, reply.text)), key)
          == HistoryOf(answered, key);
    }
  }

  /** Evidence changes in a turn only through the keyword pass over a reply,
      and the record stays free of duplicates. */
  lemma TurnEvidence(s: State, key: string, current: Option<string>, defs: seq<EvidenceDef>,
                     text: string, reply: AiReply)
    ensures Turn(s, key, current, defs, text, reply).evidences ==
      if reply.Replied? then UnlockPass(s.evidences, defs, current, reply.text) else s.evidences
    ensures Consistent(s) ==> Consistent(Turn(s, key, current, defs, text, reply))
  {
    TurnHistory(s, key, current, defs, text, reply);
  }

  /** A failed AI call leaves the character's history exactly one entry (the
      user's message) longer and the evidence as it was. */
  lemma FailedTurn(s: State, key: string, current: Option<string>, defs: seq<EvidenceDef>, text: string)
    ensures |HistoryOf(Turn(s, key, current, defs, text, Failed), key)| == |HistoryOf(s, key)| + 1
    ensures Turn(s, key, current, defs, text, Failed).evidences == s.evidences
  {
  }
}

=== FILE: reply.dfy ===
/**
 * The two-voice reply protocol. The system prompt asks the model to answer
 * `outer_voice:<speech> / inner_voice:<hint>`; a reply is split into the
 * spoken part (`displayOuter`) and the hint (`displayInner`) by two
 * case-insensitive regular expressions (game.js:95-98):
 *
 *   outer: /outer_voice[:：]\s*([\s\S]*?)(?=inner_voice|$)/i, capture trimmed,
 *          or the whole reply, untrimmed, when there is no match;
 *   inner: /inner_voice[:：]\s*([\s\S]*)/i, capture trimmed, or "" when there
 *          is no match.
 *
 * A regex search returns its leftmost match. The outer capture is lazy, so it
 * stops at the first `inner_voice` after the marker (with or without a colon)
 * or at the end of the reply. Parsing is total: every reply gives a result.
 */
module Reply {
  import opened Wrappers
  import opened Text

  const OUTER_MARKER := "outer_voice"
  const INNER_MARKER := "inner_voice"

  datatype Voices = Voices(outer: string, inner: string)

  /** Where the lazy outer capture that starts at `from` ends: at the first
      `inner_voice` (no colon needed) or at the end of the text. */
  function OuterEnd(t: string, from: nat): (q: nat)
    requires from <= |t|
    ensures from <= q <= |t|
  {
    match Find(t, INNER_MARKER, false, from)
    case Some(q) => q
    case None => |t|
  }

  /** `displayOuter` of a model reply. */
  function ParseOuter(t: string): string
  {
    match Find(t, OUTER_MARKER, true, 0)
    case None => t
    case Some(p) =>
      var start := SkipSpaces(t, p + |OUTER_MARKER| + 1);
      Trim(t[start..OuterEnd(t, start)])
  }

  /** `displayInner` of a model reply. */
  function ParseInner(t: string): string
  {
    match Find(t, INNER_MARKER, true, 0)
    case None => ""
    case Some(p) => Trim(t[SkipSpaces(t, p + |INNER_MARKER| + 1)..])
  }

  /** Both parts of a model reply; never fails. */
  function ParseReply(t: string): (v: Voices)
    ensures |v.outer| <= |t| && |v.inner| <= |t|
  {
    Voices(ParseOuter(t), ParseInner(t))
  }

  // ---------------------------------------------------------------------------
  // What the parse means
  // ---------------------------------------------------------------------------

  /** `p` is the leftmost place where marker `w` followed by `:` or `：` occurs. */
  predicate FirstMarker(t: string, w: string, p: nat)
  {
    p <= |t| && Occurs(t, p, w, true) && NoneBetween(t, w, true, 0, p)
  }

  predicate NoMarker(t: string, w: string)
  {
    NoneBetween(t, w, true, 0, |t| + 1)
  }

  /** `q` is where the spoken part that starts at `from` ends: the first
      `inner_voice` at or after `from`, or the end of the reply if there is none. */
  predicate OuterStop(t: string, from: nat, q: nat)
  {
    from <= q <= |t| && (q == |t| || WordAt(t, q, INNER_MARKER))
    && NoneBetween(t, INNER_MARKER, false, from, q)
  }

  /** A letter of a matched word, one character at a time. */
  lemma WordAtChar(t: string, j: nat, w: string, k: nat)
    requires WordAt(t, j, w) && k < |w|
    ensures LowerAscii(t[j + k]) == w[k]
  {
    assert Lower(t[j..j + |w|])[k] == LowerAscii(t[j..j + |w|][k]);
  }

  /** The regex's `\s*` can never swallow the start of an `inner_voice`. */
  lemma InnerNotInSpaces(t: string, from: nat, q: nat)
    requires from <= q < |t| && WordAt(t, q, INNER_MARKER)
    ensures !IsSpace(t[q])
  {
    WordAtChar(t, q, INNER_MARKER, 0);
  }

  /** The lazy capture ends where OuterStop says. */
  lemma OuterEndAt(t: string, from: nat, q: nat)
    requires OuterStop(t, from, q)
    ensures OuterEnd(t, from) == q
  {
    if q < |t| {
      FindLeftmost(t, INNER_MARKER, false, from, q);
    } else {
      match Find(t, INNER_MARKER, false, from)
      case Some(r) =>
        assert r < |t|;
      case None =>
    }
  }

  /** The white space skipped after a marker ends no later than the spoken part. */
  lemma SpacesBeforeStop(t: string, m: nat, q: nat)
    requires OuterStop(t, m, q)
    ensures SkipSpaces(t, m) <= q
  {
    var start := SkipSpaces(t, m);
    if q < start {
      assert t[m..start][q - m] == t[q];
      InnerNotInSpaces(t, m, q);
    }
  }

  /** The capture once the marker and the end of the spoken part are known. */
  lemma OuterCapture(t: string, p: nat, q: nat)
    requires Find(t, OUTER_MARKER, true, 0) == Some(p)
    requires SkipSpaces(t, p + |OUTER_MARKER| + 1) <= q
    requires OuterEnd(t, SkipSpaces(t, p + |OUTER_MARKER| + 1)) == q
    ensures ParseOuter(t) == Trim(t[p + |OUTER_MARKER| + 1..q])
  {
    var m := p + |OUTER_MARKER| + 1;
    var start := SkipSpaces(t, m);
    assert ParseOuter(t) == Trim(t[start..q]);
    TrimSliceFrom(t, m, start, q);
  }

  /** With an outer marker, `displayOuter` is the trimmed text from the first
      marker up to the first following `inner_voice`, or to the end. */
  lemma OuterAfterFirstMarker(t: string, p: nat, q: nat)
    requires FirstMarker(t, OUTER_MARKER, p)
    requires OuterStop(t, p + |OUTER_MARKER| + 1, q)
    ensures ParseReply(t).outer == Trim(t[p + |OUTER_MARKER| + 1..q])
  {
    var m := p + |OUTER_MARKER| + 1;
    FindLeftmost(t, OUTER_MARKER, true, 0, p);
    SpacesBeforeStop(t, m, q);
    OuterEndAt(t, SkipSpaces(t, m), q);
    OuterCapture(t, p, q);
  }

  /** OuterAfterFirstMarker, for a capture already known as `x`. */
  lemma OuterIs(t: string, p: nat, q: nat, x: string)
    requires FirstMarker(t, OUTER_MARKER, p)
    requires OuterStop(t, p + |OUTER_MARKER| + 1, q)
    requires t[p + |OUTER_MARKER| + 1..q] == x
    ensures ParseReply(t).outer == Trim(x)
  {
    OuterAfterFirstMarker(t, p, q);
  }

  /** InnerAfterFirstMarker, for a rest already known as `x`. */
  lemma InnerIs(t: string, p: nat, x: string)
    requires FirstMarker(t, INNER_MARKER, p)
    requires t[p + |INNER_MARKER| + 1..] == x
    ensures ParseReply(t).inner == Trim(x)
  {
    InnerAfterFirstMarker(t, p);
  }

  /** Without an outer marker, `displayOuter` is the whole reply, untrimmed. */
  lemma OuterWithoutMarker(t: string)
    requires NoMarker(t, OUTER_MARKER)
    ensures ParseReply(t).outer == t
  {
  }

  /** With an inner marker, `displayInner` is the trimmed rest of the reply
      after the first one. */
  lemma InnerAfterFirstMarker(t: string, p: nat)
    requires FirstMarker(t, INNER_MARKER, p)
    ensures ParseReply(t).inner == Trim(t[p + |INNER_MARKER| + 1..])
  {
    var m := p + |INNER_MARKER| + 1;
    FindLeftmost(t, INNER_MARKER, true, 0, p);
    var start := SkipSpaces(t, m);
    assert t[m..] == t[m..|t|] && t[start..] == t[start..|t|];
    TrimSliceFrom(t, m, start, |t|);
  }

  /** Without an inner marker, `displayInner` is empty. */
  lemma InnerWithoutMarker(t: string)
    requires NoMarker(t, INNER_MARKER)
    ensures ParseReply(t).inner == ""
  {
  }

  // ---------------------------------------------------------------------------
  // The output format the prompt asks for, parsed back
  // ---------------------------------------------------------------------------

  /** A reply written in the requested format: a marker spelled `om` (any ASCII
      case of `outer_voice`), a colon, the speech, a marker `im`, a colon, the hint. */
  function Format(om: string, oc: char, speech: string, im: string, ic: char, hint: string): string
  {
    om + [oc] + speech + im + [ic] + hint
  }

  /** A word found inside a slice of `t` is found in `t` at the shifted index. */
  lemma WordAtShift(t: string, d: nat, s: string, j: nat, w: string)
    requires d + |s| <= |t| && t[d..d + |s|] == s && j + |w| <= |s|
    ensures WordAt(t, d + j, w) == WordAt(s, j, w)
  {
    var a := t[d + j..d + j + |w|];
    var b := s[j..j + |w|];
    forall i | 0 <= i < |w| ensures a[i] == b[i] {
      assert a[i] == t[d + j + i];
      assert b[i] == s[j + i] == t[d..d + |s|][j + i];
    }
    assert a == b;
  }

  /** A reply that starts with an outer marker has its first marker at 0. */
  lemma MarkerFirst(t: string, om: string)
    requires |om| == |OUTER_MARKER| && Lower(om) == OUTER_MARKER
    requires |om| < |t| && t[..|om|] == om && IsColon(t[|om|])
    ensures FirstMarker(t, OUTER_MARKER, 0)
  {
    assert t[0..|om|] == om;
  }

  /** No `inner_voice` starts inside a leading outer marker and its colon. */
  lemma NoInnerInOuterMarker(t: string, om: string, j: nat)
    requires |om| == |OUTER_MARKER| && Lower(om) == OUTER_MARKER
    requires |om| < |t| && t[..|om|] == om && IsColon(t[|om|])
    requires j <= |om|
    ensures !WordAt(t, j, INNER_MARKER)
  {
    if WordAt(t, j, INNER_MARKER) {
      WordAtChar(t, j, INNER_MARKER, 0);
      if j < |om| {
        assert t[j] == om[j];
        assert LowerAscii(om[j]) == Lower(om)[j];
        if j == 8 {
          assert t[9] == om[9];
          assert LowerAscii(om[9]) == Lower(om)[9];
          WordAtChar(t, j, INNER_MARKER, 1);
        }
      }
    }
  }

  /** No `inner_voice` starts inside the speech, and the inner marker follows it. */
  lemma SpeechStop(t: string, m: nat, speech: string, im: string)
    requires |im| == |INNER_MARKER| && Lower(im) == INNER_MARKER
    requires m + |speech| + |im| <= |t| && t[m..m + |speech| + |im|] == speech + im
    requires NoneBetween(speech + im, INNER_MARKER, false, 0, |speech|)
    ensures OuterStop(t, m, m + |speech|)
  {
    var s := speech + im;
    forall j: nat | m <= j < m + |speech| ensures !Occurs(t, j, INNER_MARKER, false) {
      WordAtShift(t, m, s, j - m, INNER_MARKER);
      assert !Occurs(s, j - m, INNER_MARKER, false);
    }
    WordAtShift(t, m, s, |speech|, INNER_MARKER);
    assert s[|speech|..|speech| + |im|] == im;
  }

  /** The pieces of a well-formed reply, as slices. */
  lemma FormatSlices(om: string, oc: char, speech: string, im: string, ic: char, hint: string)
    ensures var t := Format(om, oc, speech, im, ic, hint);
      var m := |om| + 1;
      var e := m + |speech|;
      |t| == e + |im| + 1 + |hint|
      && t[..|om|] == om && t[|om|] == oc
      && t[m..e + |im|] == speech + im && t[m..e] == speech
      && t[e + |im|] == ic && t[e + |im| + 1..] == hint
  {
  }

  /** The spoken part of a reply laid out as marker, colon, speech, inner
      marker, stated on slices of the reply. */
  lemma OuterFromSlices(t: string, om: string, speech: string, im: string)
    requires |om| == |OUTER_MARKER| && Lower(om) == OUTER_MARKER
    requires |im| == |INNER_MARKER| && Lower(im) == INNER_MARKER
    requires |om| < |t| && t[..|om|] == om && IsColon(t[|om|])
    requires |om| + 1 + |speech| + |im| <= |t|
    requires t[|om| + 1..|om| + 1 + |speech| + |im|] == speech + im
    requires t[|om| + 1..|om| + 1 + |speech|] == speech
    requires NoneBetween(speech + im, INNER_MARKER, false, 0, |speech|)
    ensures ParseReply(t).outer == Trim(speech)
  {
    var m := |om| + 1;
    assert m == 0 + |OUTER_MARKER| + 1;
    MarkerFirst(t, om);
    SpeechStop(t, m, speech, im);
    OuterIs(t, 0, m + |speech|, speech);
  }

  /** The speech of a well-formed reply is its `displayOuter`, trimmed. */
  lemma FormatOuter(om: string, oc: char, speech: string, im: string, ic: char, hint: string)
    requires |om| == |OUTER_MARKER| && Lower(om) == OUTER_MARKER && IsColon(oc)
    requires |im| == |INNER_MARKER| && Lower(im) == INNER_MARKER
    requires NoneBetween(speech + im, INNER_MARKER, false, 0, |speech|)
    ensures ParseReply(Format(om, oc, speech, im, ic, hint)).outer == Trim(speech)
  {
    FormatSlices(om, oc, speech, im, ic, hint);
    OuterFromSlices(Format(om, oc, speech, im, ic, hint), om, speech, im);
  }

  /** The hint of a reply laid out as marker, colon, speech, inner marker,
      colon, hint, stated on slices of the reply. */
  lemma InnerFromSlices(t: string, om: string, speech: string, im: string, hint: string)
    requires |om| == |OUTER_MARKER| && Lower(om) == OUTER_MARKER
    requires |im| == |INNER_MARKER| && Lower(im) == INNER_MARKER
    requires |om| < |t| && t[..|om|] == om && IsColon(t[|om|])
    requires |t| == |om| + 1 + |speech| + |im| + 1 + |hint|
    requires t[|om| + 1..|om| + 1 + |speech| + |im|] == speech + im
    requires IsColon(t[|om| + 1 + |speech| + |im|])
    requires t[|om| + 1 + |speech| + |im| + 1..] == hint
    requires NoneBetween(speech + im, INNER_MARKER, false, 0, |speech|)
    ensures ParseReply(t).inner == Trim(hint)
  {
    var m := |om| + 1;
    var e := m + |speech|;
    SpeechStop(t, m, speech, im);
    forall j: nat | j < e ensures !Occurs(t, j, INNER_MARKER, true) {
      if j < m {
        NoInnerInOuterMarker(t, om, j);
      } else {
        assert !Occurs(t, j, INNER_MARKER, false);
      }
    }
    assert FirstMarker(t, INNER_MARKER, e);
    InnerIs(t, e, hint);
  }

  /** The hint of a well-formed reply is its `displayInner`, trimmed. */
  lemma FormatInner(om: string, oc: char, speech: string, im: string, ic: char, hint: string)
    requires |om| == |OUTER_MARKER| && Lower(om) == OUTER_MARKER && IsColon(oc)
    requires |im| == |INNER_MARKER| && Lower(im) == INNER_MARKER && IsColon(ic)
    requires NoneBetween(speech + im, INNER_MARKER, false, 0, |speech|)
    ensures ParseReply(Format(om, oc, speech, im, ic, hint)).inner == Trim(hint)
  {
    FormatSlices(om, oc, speech, im, ic, hint);
    InnerFromSlices(Format(om, oc, speech, im, ic, hint), om, speech, im, hint);
  }

  /** Parsing a well-formed reply recovers the trimmed speech and the trimmed
      hint, whatever the letter case of the markers and whichever colon is used,
      as long as no `inner_voice` starts inside the speech. */
  lemma FormatParse(om: string, oc: char, speech: string, im: string, ic: char, hint: string)
    requires |om| == |OUTER_MARKER| && Lower(om) == OUTER_MARKER && IsColon(oc)
    requires |im| == |INNER_MARKER| && Lower(im) == INNER_MARKER && IsColon(ic)
    requires NoneBetween(speech + im, INNER_MARKER, false, 0, |speech|)
    ensures ParseReply(Format(om, oc, speech, im, ic, hint)) == Voices(Trim(speech), Trim(hint))
  {
    FormatOuter(om, oc, speech, im, ic, hint);
    FormatInner(om, oc, speech, im, ic, hint);
  }

  /** The markers as written in the prompt are already in lower case. */
  lemma MarkersLowerCase()
    ensures Lower(OUTER_MARKER) == OUTER_MARKER && Lower(INNER_MARKER) == INNER_MARKER
  {
  }

  /** A speech with no letter `i` in any case cannot hold `inner_voice`. */
  lemma NoInnerWithoutI(speech: string, im: string)
    requires forall k :: 0 <= k < |speech| ==> speech[k] != 'i' && speech[k] != 'I'
    ensures NoneBetween(speech + im, INNER_MARKER, false, 0, |speech|)
  {
    forall j: nat | j < |speech| ensures !Occurs(speech + im, j, INNER_MARKER, false) {
      if Occurs(speech + im, j, INNER_MARKER, false) {
        WordAtChar(speech + im, j, INNER_MARKER, 0);
      }
    }
  }

  /** The speech of the example reply, trimmed. */
  lemma ExampleSpeechTrims()
    ensures Trim(" Hello\n") == "Hello"
  {
    var a, x, b := " ", "Hello", "\n";
    assert a + x + b == " Hello\n";
    assert Trimmed(x) && AllSpace(a) && AllSpace(b);
    TrimPadded(a, x, b);
  }

  /** The hint of the example reply, trimmed. */
  lemma ExampleHintTrims()
    ensures Trim(" watch Bob") == "watch Bob"
  {
    var a, x, b := " ", "watch Bob", "";
    assert a + x + b == " watch Bob";
    assert Trimmed(x) && AllSpace(a) && AllSpace(b);
    TrimPadded(a, x, b);
  }

  /** A reply in the requested format: speech "Hello", hint "watch Bob". */
  lemma ParseExample()
    ensures ParseReply("outer_voice: Hello\ninner_voice: watch Bob") == Voices("Hello", "watch Bob")
  {
    ExampleIsFormatted();
    ExampleParses();
  }

  /** The example reply is a formatted reply with lower-case markers. */
  lemma ExampleIsFormatted()
    ensures Format(OUTER_MARKER, ':', " Hello\n", INNER_MARKER, ':', " watch Bob")
         == "outer_voice: Hello\ninner_voice: watch Bob"
  {
  }

  /** The voices of the formatted example. */
  lemma ExampleParses()
    ensures ParseReply(Format(OUTER_MARKER, ':', " Hello\n", INNER_MARKER, ':', " watch Bob")) == Voices("Hello", "watch Bob")
  {
    var speech, hint := " Hello\n", " watch Bob";
    MarkersLowerCase();
    NoInnerWithoutI(speech, INNER_MARKER);
    FormatParse(OUTER_MARKER, ':', speech, INNER_MARKER, ':', hint);
    ExampleSpeechTrims();
    ExampleHintTrims();
  }

  /** A reply without markers is shown whole, with no hint. */
  lemma PlainReply(t: string)
    requires NoMarker(t, OUTER_MARKER) && NoMarker(t, INNER_MARKER)
    ensures ParseReply(t) == Voices(t, "")
  {
    OuterWithoutMarker(t);
    InnerWithoutMarker(t);
  }

  /** A reply shorter than both markers holds neither. */
  lemma ShortReplyIsPlain(t: string)
    requires |t| < |INNER_MARKER|
    ensures ParseReply(t) == Voices(t, "")
  {
    PlainReply(t);
  }
}

=== FILE: state.dfy ===
/**
 * The game's persisted progress record (`this.state` in game.js:8-18), the
 * record read back from storage, the shallow merge that loading does, and the
 * per-character chat history.
 */
module GameState {
  import opened Wrappers
  import opened Reply

  datatype Difficulty = Detective | Master

  datatype Role = User | Model | System

  /** One chat-log entry `{role, text, displayOuter, displayInner}`. */
  datatype Entry = Entry(role: Role, text: string, displayOuter: string, displayInner: string)

  /** The state record. `lastExploration` is `unlockTimestamps.last_exploration`;
      `flags` is kept for scenario use and read by nothing here. */
  datatype State = State(
    difficulty: Difficulty,
    evidences: seq<string>,
    history: map<string, seq<Entry>>,
    flags: map<string, string>,
    unlockedLocations: seq<int>,
    visitedLocations: seq<int>,
    currentCoolingDown: bool,
    lastExploration: int,
    startTime: int)

  /** The record a new game starts from; `now` is the clock at construction. */
  function Defaults(now: int): (s: State)
    ensures s.evidences == [] && s.history == map[] && s.visitedLocations == []
    ensures !s.currentCoolingDown && s.lastExploration == 0 && s.startTime == now
    ensures s.difficulty == Detective && s.flags == map[] && s.unlockedLocations == [6, 7, 8, 9, 10]
  {
    State(Detective, [], map[], map[], [6, 7, 8, 9, 10], [], false, 0, now)
  }

  /** A record parsed from storage: each top-level key may be present or not. */
  datatype Saved = Saved(
    difficulty: Option<Difficulty>,
    evidences: Option<seq<string>>,
    history: Option<map<string, seq<Entry>>>,
    flags: Option<map<string, string>>,
    unlockedLocations: Option<seq<int>>,
    visitedLocations: Option<seq<int>>,
    currentCoolingDown: Option<bool>,
    unlockTimestamps: Option<int>,
    startTime: Option<int>)

  /** `{ ...base, ...saved }`: a key present in the saved record replaces the
      whole value of that key; an absent key keeps the base value. */
  function Merge(base: State, saved: Saved): (r: State)
  {
    State(
      saved.difficulty.GetOr(base.difficulty),
      saved.evidences.GetOr(base.evidences),
      saved.history.GetOr(base.history),
      saved.flags.GetOr(base.flags),
      saved.unlockedLocations.GetOr(base.unlockedLocations),
      saved.visitedLocations.GetOr(base.visitedLocations),
      saved.currentCoolingDown.GetOr(base.currentCoolingDown),
      saved.unlockTimestamps.GetOr(base.lastExploration),
      saved.startTime.GetOr(base.startTime))
  }

  /** What `saveState` writes: every key of the record. */
  function Snapshot(s: State): (saved: Saved)
  {
    Saved(Some(s.difficulty), Some(s.evidences), Some(s.history), Some(s.flags),
          Some(s.unlockedLocations), Some(s.visitedLocations), Some(s.currentCoolingDown),
          Some(s.lastExploration), Some(s.startTime))
  }

  const EMPTY_RECORD := Saved(None, None, None, None, None, None, None, None, None)

  /** Loading what was saved restores it, whatever the defaults were. */
  lemma MergeSnapshot(base: State, s: State)
    ensures Merge(base, Snapshot(s)) == s
  {
  }

  /** A record with no keys leaves the defaults as they are. */
  lemma MergeEmpty(base: State)
    ensures Merge(base, EMPTY_RECORD) == base
  {
  }

  /** Each key is taken from the saved record when present, else from the base. */
  lemma MergeByKey(base: State, saved: Saved)
    ensures saved.evidences.Some? ==> Merge(base, saved).evidences == saved.evidences.value
    ensures saved.evidences.None? ==> Merge(base, saved).evidences == base.evidences
    ensures saved.visitedLocations.Some? ==> Merge(base, saved).visitedLocations == saved.visitedLocations.value
    ensures saved.visitedLocations.None? ==> Merge(base, saved).visitedLocations == base.visitedLocations
    ensures saved.currentCoolingDown.Some? ==> Merge(base, saved).currentCoolingDown == saved.currentCoolingDown.value
    ensures saved.currentCoolingDown.None? ==> Merge(base, saved).currentCoolingDown == base.currentCoolingDown
    ensures saved.history.Some? ==> Merge(base, saved).history == saved.history.value
    ensures saved.history.None? ==> Merge(base, saved).history == base.history
    ensures saved.difficulty.Some? ==> Merge(base, saved).difficulty == saved.difficulty.value
    ensures saved.difficulty.None? ==> Merge(base, saved).difficulty == base.difficulty
    ensures saved.flags.Some? ==> Merge(base, saved).flags == saved.flags.value
    ensures saved.flags.None? ==> Merge(base, saved).flags == base.flags
    ensures saved.unlockedLocations.Some? ==> Merge(base, saved).unlockedLocations == saved.unlockedLocations.value
    ensures saved.unlockedLocations.None? ==> Merge(base, saved).unlockedLocations == base.unlockedLocations
    ensures saved.unlockTimestamps.Some? ==> Merge(base, saved).lastExploration == saved.unlockTimestamps.value
    ensures saved.unlockTimestamps.None? ==> Merge(base, saved).lastExploration == base.lastExploration
    ensures saved.startTime.Some? ==> Merge(base, saved).startTime == saved.startTime.value
    ensures saved.startTime.None? ==> Merge(base, saved).startTime == base.startTime
  {
  }

  // ---------------------------------------------------------------------------
  // Chat history
  // ---------------------------------------------------------------------------

  /** The entry `appendMessage` records: a model reply is split into its two
      voices, any other text is shown as it is, with no hint. */
  function MakeEntry(role: Role, text: string): (e: Entry)
    ensures e.role == role && e.text == text
    ensures role != Model ==> e.displayOuter == text && e.displayInner == ""
    ensures role == Model ==> Voices(e.displayOuter, e.displayInner) == ParseReply(text)
  {
    if role == Model then
      var v := ParseReply(text);
      Entry(role, text, v.outer, v.inner)
    else Entry(role, text, text, "")
  }

  /** The hint shown under a chat entry: only for a model reply, only in
      master mode, and only when the reply had a non-empty inner voice. */
  function VisibleHint(d: Difficulty, e: Entry): (hint: Option<string>)
    ensures hint.Some? <==> e.role == Model && d == Master && e.displayInner != ""
    ensures hint.Some? ==> hint.value == e.displayInner
  {
    if e.role == Model && d == Master && e.displayInner != "" then Some(e.displayInner) else None
  }

  /** Detective mode never shows a hint, and the player's own messages never
      carry one in any mode. */
  lemma HintsOnlyInMasterMode(e: Entry, text: string, d: Difficulty)
    ensures VisibleHint(Detective, e) == None
    ensures VisibleHint(d, MakeEntry(User, text)) == None
    ensures VisibleHint(d, MakeEntry(System, text)) == None
  {
  }

  /** The key a character's history is stored under: JavaScript turns a
      `null` current character into the property name "null". */
  function HistoryKey(current: Option<string>): string
  {
    match current
    case Some(id) => id
    case None => "null"
  }

  /** `(state.history || {})[key] || []`. */
  function HistoryOf(s: State, key: string): seq<Entry>
  {
    if key in s.history then s.history[key] else []
  }

  /** The history with `e` pushed onto the list under `key`, created if absent. */
  function Appended(s: State, key: string, e: Entry): (r: State)
    ensures HistoryOf(r, key) == HistoryOf(s, key) + [e]
    ensures forall k :: k != key ==> HistoryOf(r, k) == HistoryOf(s, k)
    ensures r.(history := s.history) == s
  {
    s.(history := s.history[key := HistoryOf(s, key) + [e]])
  }

  /** Number of history entries `sendMessage` passes to `sendToAI`, which
      ignores them (ai.js:27 takes only the prompt and the message). */
  const HISTORY_WINDOW := 10

  /** `history.slice(-10)`: the last ten entries, or all of them if fewer. */
  function RecentHistory(h: seq<Entry>): (r: seq<Entry>)
    ensures |r| == if |h| < HISTORY_WINDOW then |h| else HISTORY_WINDOW
    ensures r == h[|h| - |r|..]
  {
    if |h| <= HISTORY_WINDOW then h else h[|h| - HISTORY_WINDOW..]
  }

  /** Right after an entry is appended, the window ends with that entry. */
  lemma RecentEndsWithLast(h: seq<Entry>, e: Entry)
    ensures var r := RecentHistory(h + [e]);
      1 <= |r| <= HISTORY_WINDOW && r[|r| - 1] == e
  {
  }
}

=== FILE: text.dfy ===
/**
 * The string primitives the game relies on, with JavaScript's meaning:
 * `trim` and the regular-expression class `\s`, ASCII case-insensitive
 * matching of the reply markers, `split` on one character, `join`, and
 * `includes`. JavaScript strings are sequences of UTF-16 code units; here a
 * string is a sequence of Unicode scalar values, which gives the same results
 * for every operation below (all the characters they look for are in the
 * Basic Multilingual Plane).
 */
module Text {
  import opened Wrappers

  // ---------------------------------------------------------------------------
  // White space and trim
  // ---------------------------------------------------------------------------

  /** The characters ECMAScript calls WhiteSpace or LineTerminator: the set that
      both `\s` and `String.prototype.trim` use. */
  predicate IsSpace(c: char)
  {
    c == '\t' || c == '\n' || c == '\U{000B}' || c == '\U{000C}' || c == '\r' || c == ' '
    || c == '\U{00A0}' || c == '\U{1680}' || ('\U{2000}' <= c <= '\U{200A}')
    || c == '\U{2028}' || c == '\U{2029}' || c == '\U{202F}' || c == '\U{205F}'
    || c == '\U{3000}' || c == '\U{FEFF}'
  }

  predicate AllSpace(s: string)
  {
    forall k :: 0 <= k < |s| ==> IsSpace(s[k])
  }

  /** The index after the run of white space that starts at `i` (the regex `\s*`). */
  function SkipSpaces(s: string, i: nat): (k: nat)
    requires i <= |s|
    ensures i <= k <= |s|
    ensures AllSpace(s[i..k])
    ensures k < |s| ==> !IsSpace(s[k])
    decreases |s| - i
  {
    if i < |s| && IsSpace(s[i]) then SkipSpaces(s, i + 1) else i
  }

  /** The index where the run of white space that ends at `j` begins. */
  function SkipSpacesBack(s: string, j: nat): (k: nat)
    requires j <= |s|
    ensures k <= j
    ensures AllSpace(s[k..j])
    ensures k > 0 ==> !IsSpace(s[k - 1])
    decreases j
  {
    if j > 0 && IsSpace(s[j - 1]) then
      var k := SkipSpacesBack(s, j - 1);
      assert s[k..j] == s[k..j - 1] + [s[j - 1]];
      AllSpaceConcat(s[k..j - 1], [s[j - 1]]);
      k
    else j
  }

  lemma AllSpaceConcat(a: string, b: string)
    requires AllSpace(a) && AllSpace(b)
    ensures AllSpace(a + b)
  {
    forall k | 0 <= k < |a + b| ensures IsSpace((a + b)[k]) {
      if k < |a| { assert (a + b)[k] == a[k]; } else { assert (a + b)[k] == b[k - |a|]; }
    }
  }

  /** `String.prototype.trim`. */
  function Trim(s: string): (r: string)
    ensures |r| <= |s|
    ensures r == [] <==> AllSpace(s)
    ensures r != [] ==> !IsSpace(r[0]) && !IsSpace(r[|r| - 1])
  {
    var i := SkipSpaces(s, 0);
    var j := SkipSpacesBack(s, |s|);
    assert i == |s| ==> s[0..i] == s;
    if i < j then s[i..j] else []
  }

  /** A string without white space at either end. */
  predicate Trimmed(x: string)
  {
    x == [] || (!IsSpace(x[0]) && !IsSpace(x[|x| - 1]))
  }

  /** SkipSpaces stops at the first non-space character. */
  lemma {:induction false} SkipSpacesStops(s: string, i: nat, p: nat)
    requires i <= p <= |s| && AllSpace(s[i..p])
    requires p < |s| ==> !IsSpace(s[p])
    ensures SkipSpaces(s, i) == p
    decreases p - i
  {
    if i < p {
      assert s[i..p][0] == s[i];
      assert s[i + 1..p] == s[i..p][1..];
      SkipSpacesStops(s, i + 1, p);
    }
  }

  /** SkipSpacesBack stops after the last non-space character. */
  lemma {:induction false} SkipSpacesBackStops(s: string, j: nat, p: nat)
    requires p <= j <= |s| && AllSpace(s[p..j])
    requires p > 0 ==> !IsSpace(s[p - 1])
    ensures SkipSpacesBack(s, j) == p
    decreases j - p
  {
    if p < j {
      assert s[p..j][j - 1 - p] == s[j - 1];
      assert s[p..j - 1] == s[p..j][..j - 1 - p];
      SkipSpacesBackStops(s, j - 1, p);
    }
  }

  /** Trim removes exactly the white-space padding around a trimmed core. */
  lemma TrimPadded(a: string, x: string, b: string)
    requires AllSpace(a) && AllSpace(b) && Trimmed(x)
    ensures Trim(a + x + b) == x
  {
    var s := a + x + b;
    if x == [] {
      assert s == a + b;
      AllSpaceConcat(a, b);
    } else {
      var e := |a| + |x|;
      assert s[0..|a|] == a;
      assert s[|a|] == x[0];
      SkipSpacesStops(s, 0, |a|);
      assert s[e..|s|] == b;
      assert s[e - 1] == x[|x| - 1];
      SkipSpacesBackStops(s, |s|, e);
      assert s[|a|..e] == x;
    }
  }

  /** Every string is a trimmed core with white-space padding on both sides. */
  lemma TrimParts(y: string) returns (pre: string, post: string)
    ensures AllSpace(pre) && AllSpace(post)
    ensures y == pre + Trim(y) + post
  {
    var i := SkipSpaces(y, 0);
    var j := SkipSpacesBack(y, |y|);
    if i < j {
      pre, post := y[..i], y[j..];
      assert y[0..i] == pre && y[j..|y|] == post;
      assert y == y[..i] + y[i..j] + y[j..];
    } else {
      pre, post := y, [];
    }
  }

  /** Concatenation regrouped around a prefix. */
  lemma Regroup(a: string, p: string, c: string, q: string)
    ensures a + (p + c + q) == (a + p) + c + q
  {
  }

  /** White space in front of a string does not change its trimmed form: the
      regex `\s*` before a capture that is trimmed anyway is absorbed by trim. */
  lemma {:induction false} TrimDropsLeadingSpace(a: string, y: string)
    requires AllSpace(a)
    ensures Trim(a + y) == Trim(y)
  {
    var pre, post := TrimParts(y);
    var core := Trim(y);
    Regroup(a, pre, core, post);
    AllSpaceConcat(a, pre);
    TrimPadded(a + pre, core, post);
  }

  /** A slice is the concatenation of its two halves. */
  lemma SliceHalves(s: string, i: nat, j: nat, k: nat)
    requires i <= j <= k <= |s|
    ensures s[i..k] == s[i..j] + s[j..k]
  {
  }

  /** Trimming a slice ignores the white space at its start. */
  lemma TrimSliceFrom(s: string, i: nat, j: nat, k: nat)
    requires i <= j <= k <= |s| && AllSpace(s[i..j])
    ensures Trim(s[i..k]) == Trim(s[j..k])
  {
    SliceHalves(s, i, j, k);
    TrimDropsLeadingSpace(s[i..j], s[j..k]);
  }

  /** Trimming twice is trimming once. */
  lemma TrimIdempotent(s: string)
    ensures Trim(Trim(s)) == Trim(s)
  {
    assert [] + Trim(s) + [] == Trim(s);
    TrimPadded([], Trim(s), []);
  }

  // ---------------------------------------------------------------------------
  // Case-insensitive marker search
  // ---------------------------------------------------------------------------

  /** ASCII upper-case letters to lower case; every other character unchanged.
      A case-insensitive JavaScript regex without the `u` flag matches an ASCII
      letter of the pattern against exactly its two ASCII cases. */
  function LowerAscii(c: char): (d: char)
    ensures 'A' <= c <= 'Z' ==> 'a' <= d <= 'z' && d as int - c as int == 32
    ensures !('A' <= c <= 'Z') ==> d == c
  {
    if 'A' <= c <= 'Z' then (c as int + 32) as char else c
  }

  function Lower(s: string): (r: string)
    ensures |r| == |s|
  {
    seq(|s|, k requires 0 <= k < |s| => LowerAscii(s[k]))
  }

  /** The lower-case word `w` occurs at index `i` of `t`, letters matched in either case. */
  predicate WordAt(t: string, i: nat, w: string)
  {
    i + |w| <= |t| && Lower(t[i..i + |w|]) == w
  }

  /** `：` (U+FF1A), the full-width colon. */
  const FULL_WIDTH_COLON: char := '\U{FF1A}'

  predicate IsColon(c: char)
  {
    c == ':' || c == FULL_WIDTH_COLON
  }

  /** `w` occurs at `i`, and, when `colon` is set, is followed by `:` or `：`
      (the regex `w[:：]` under the `i` flag). */
  predicate Occurs(t: string, i: nat, w: string, colon: bool)
  {
    WordAt(t, i, w) && (colon ==> i + |w| < |t| && IsColon(t[i + |w|]))
  }

  /** No occurrence starts in [lo, hi). */
  predicate NoneBetween(t: string, w: string, colon: bool, lo: nat, hi: nat)
  {
    forall j: nat :: lo <= j < hi ==> !Occurs(t, j, w, colon)
  }

  /** The leftmost occurrence at or after `from`: where a regex search for it succeeds. */
  function Find(t: string, w: string, colon: bool, from: nat): (r: Option<nat>)
    requires from <= |t|
    ensures r.Some? ==> from <= r.value <= |t| && Occurs(t, r.value, w, colon)
    ensures r.Some? ==> NoneBetween(t, w, colon, from, r.value)
    ensures r.None? ==> NoneBetween(t, w, colon, from, |t| + 1)
    decreases |t| - from
  {
    if Occurs(t, from, w, colon) then Some(from)
    else if from == |t| then None
    else Find(t, w, colon, from + 1)
  }

  /** An occurrence with none before it is the one Find returns. */
  lemma FindLeftmost(t: string, w: string, colon: bool, from: nat, p: nat)
    requires from <= p <= |t| && Occurs(t, p, w, colon)
    requires NoneBetween(t, w, colon, from, p)
    ensures Find(t, w, colon, from) == Some(p)
  {
  }

  // ---------------------------------------------------------------------------
  // split, join, includes
  // ---------------------------------------------------------------------------

  /** The first index of `c` in `s`. */
  function IndexOf(s: string, c: char): (i: nat)
    requires c in s
    ensures i < |s| && s[i] == c && c !in s[..i]
  {
    if s[0] == c then 0 else 1 + IndexOf(s[1..], c)
  }

  /** `Array.prototype.join` with a one-character separator. */
  function Join(parts: seq<string>, sep: char): string
  {
    if |parts| == 0 then []
    else if |parts| == 1 then parts[0]
    else parts[0] + [sep] + Join(parts[1..], sep)
  }

  /** `String.prototype.split` on one character: the maximal separator-free
      pieces, which join back to the input. */
  function Split(s: string, sep: char): (parts: seq<string>)
    ensures |parts| >= 1
    ensures forall k :: 0 <= k < |parts| ==> sep !in parts[k]
    ensures Join(parts, sep) == s
    decreases |s|
  {
    if sep !in s then [s]
    else
      var i := IndexOf(s, sep);
      var rest := Split(s[i + 1..], sep);
      assert ([s[..i]] + rest)[1..] == rest;
      assert s == s[..i] + [sep] + s[i + 1..];
      [s[..i]] + rest
  }

  /** Splitting a join of separator-free pieces gives the pieces back. */
  lemma {:induction false} SplitJoin(parts: seq<string>, sep: char)
    requires |parts| >= 1
    requires forall k :: 0 <= k < |parts| ==> sep !in parts[k]
    ensures Split(Join(parts, sep), sep) == parts
    decreases |parts|
  {
    if |parts| > 1 {
      var p0 := parts[0];
      var rest := Join(parts[1..], sep);
      var s := Join(parts, sep);
      assert s == p0 + [sep] + rest;
      assert s[|p0|] == sep;
      var i := IndexOf(s, sep);
      assert s[..i] == p0;
      assert s[i + 1..] == rest;
      SplitJoin(parts[1..], sep);
      assert parts == [p0] + parts[1..];
    } else {
      assert sep !in parts[0];
    }
  }

  /** `needle` occurs in `hay` starting at index `i`. */
  predicate SubstringAt(hay: string, needle: string, i: nat)
  {
    i + |needle| <= |hay| && hay[i..i + |needle|] == needle
  }

  /** `String.prototype.includes`. */
  function Contains(hay: string, needle: string): bool
    decreases |hay|
  {
    if |needle| > |hay| then false
    else if hay[..|needle|] == needle then true
    else Contains(hay[1..], needle)
  }

  /** An occurrence in the tail is an occurrence one place further on. */
  lemma SubstringShift(hay: string, needle: string, i: nat)
    requires |hay| > 0
    ensures SubstringAt(hay[1..], needle, i) <==> SubstringAt(hay, needle, i + 1)
  {
    if i + 1 + |needle| <= |hay| {
      assert hay[1..][i..i + |needle|] == hay[i + 1..i + 1 + |needle|];
    }
  }

  /** includes holds exactly when the needle occurs at some index. */
  lemma {:induction false} ContainsIff(hay: string, needle: string)
    ensures Contains(hay, needle) <==> exists i: nat :: SubstringAt(hay, needle, i)
    decreases |hay|
  {
    if |needle| > |hay| {
    } else if hay[..|needle|] == needle {
      assert SubstringAt(hay, needle, 0);
    } else {
      ContainsIff(hay[1..], needle);
      if Contains(hay, needle) {
        var i: nat :| SubstringAt(hay[1..], needle, i);
        SubstringShift(hay, needle, i);
      } else if i: nat :| SubstringAt(hay, needle, i) {
        assert i != 0;
        SubstringShift(hay, needle, i - 1);
        assert false;
      }
    }
  }
}

=== FILE: walkthrough.dfy ===
/**
 * A short play session driven through the `Game` methods: a first load
 * grants the start evidence, a reply from yotsuba that mentions the key
 * unlocks the key evidence, and exploring location 6 blocks location 7 until
 * ten minutes later.
 */
module Walkthrough {
  import opened Wrappers
  import opened Text
  import opened Evidence
  import opened GameState
  import opened Cooldown
  import opened Session

  const START_EVIDENCE := EvidenceDef("e1", "遺体", "", START)
  const KEY_EVIDENCE := EvidenceDef("e2", "鍵", "", "yotsuba:鍵")
  const KEY_REPLY := "outer_voice: 鍵"

  lemma ReplyMentionsKey()
    ensures Contains(KEY_REPLY, "鍵")
  {
    assert SubstringAt(KEY_REPLY, "鍵", 13);
    ContainsIff(KEY_REPLY, "鍵");
  }

  const DEFS := [START_EVIDENCE, KEY_EVIDENCE]

  /** A first load, with nothing stored, owns exactly the start evidence. */
  lemma FirstLoadGrantsStart()
    ensures GrantStart([], DEFS) == ["e1"]
  {
    var one := DEFS[..1];
    assert one[..0] == [] && one[0] == START_EVIDENCE;
    assert Collect([], one[..0], StartRule) == [];
    assert Wants(StartRule, START_EVIDENCE);
    assert AddId([], "e1") == ["e1"];
    assert Collect([], one, StartRule) == ["e1"];
    assert !Wants(StartRule, KEY_EVIDENCE);
  }

  /** A reply from yotsuba that mentions the key unlocks the key evidence. */
  lemma KeyReplyUnlocks(aiText: string)
    requires Contains(aiText, "鍵")
    ensures UnlockPass(["e1"], DEFS, Some("yotsuba"), aiText) == ["e1", "e2"]
  {
    var rule := KeywordRule(Some("yotsuba"), aiText);
    assert DEFS == [] + [START_EVIDENCE] + [KEY_EVIDENCE];
    CollectSnoc(["e1"], [], START_EVIDENCE, rule);
    StartAlreadyOwned(rule);
    CollectSnoc(["e1"], [START_EVIDENCE], KEY_EVIDENCE, rule);
    KeyStep(aiText);
  }

  /** The pass skips the start evidence, which is owned already. */
  lemma StartAlreadyOwned(rule: Rule)
    ensures Step(["e1"], START_EVIDENCE, rule) == ["e1"]
  {
    assert START_EVIDENCE.id in ["e1"];
  }

  /** The pass then adds the key evidence. */
  lemma KeyStep(aiText: string)
    requires Contains(aiText, "鍵")
    ensures Step(["e1"], KEY_EVIDENCE, KeywordRule(Some("yotsuba"), aiText)) == ["e1", "e2"]
  {
    KeyWanted(aiText);
    assert KEY_EVIDENCE.id !in ["e1"];
    StepAdds(["e1"], KEY_EVIDENCE, KeywordRule(Some("yotsuba"), aiText));
  }

  lemma KeyWanted(aiText: string)
    requires Contains(aiText, "鍵")
    ensures Wants(KeywordRule(Some("yotsuba"), aiText), KEY_EVIDENCE)
  {
    KeywordExample(aiText);
  }

  const QUESTION := "鍵はどこ？"

  lemma QuestionIsNotBlank()
    ensures Trim(QUESTION) != []
  {
    assert !IsSpace(QUESTION[0]);
  }

  /** The turn of the walkthrough, on the record level. */
  lemma KeyTurn(s0: State)
    requires s0.evidences == ["e1"]
    ensures var r := Turn(s0, "yotsuba", Some("yotsuba"), DEFS, QUESTION, Session.Replied(KEY_REPLY));
      r.evidences == ["e1", "e2"] && r.visitedLocations == s0.visitedLocations &&
      r.currentCoolingDown == s0.currentCoolingDown
  {
    TurnHistory(s0, "yotsuba", Some("yotsuba"), DEFS, QUESTION, Session.Replied(KEY_REPLY));
    TurnEvidence(s0, "yotsuba", Some("yotsuba"), DEFS, QUESTION, Session.Replied(KEY_REPLY));
    ReplyMentionsKey();
    KeyReplyUnlocks(KEY_REPLY);
  }

  /** Asks yotsuba about the key and gets a reply that mentions it. */
  method AskAboutKey(game: Game)
    requires game.evidenceDefs == DEFS && game.state.evidences == ["e1"] && !game.isAiThinking
    modifies game
    ensures game.state.evidences == ["e1", "e2"]
    ensures game.state.visitedLocations == old(game.state.visitedLocations)
    ensures game.state.currentCoolingDown == old(game.state.currentCoolingDown)
  {
    game.OpenInterrogation("yotsuba");
    QuestionIsNotBlank();
    KeyTurn(game.state);
    var _ := game.SendMessage(QUESTION, Session.Replied(KEY_REPLY));
  }

  /** Explores location 6, tries location 7 at once, then again ten minutes
      after the first exploration. */
  method ExploreSixThenSeven(game: Game) returns (first: ExploreOutcome, blocked: ExploreOutcome, later: ExploreOutcome)
    requires game.state.visitedLocations == [] && !game.state.currentCoolingDown
    modifies game
    ensures first == Explored && blocked == StillCooling && later == Explored
    ensures game.state.visitedLocations == [6, 7]
  {
    var opens: bool;
    first, opens := game.ExploreLocation(6, 1000, true);
    assert opens;
    blocked, opens := game.ExploreLocation(7, 2000, true);
    assert !opens;
    var _ := game.CheckLocationUnlocks(1000 + COOLDOWN_MS);
    later, opens := game.ExploreLocation(7, 1000 + COOLDOWN_MS, true);
  }

  /** The evidence owned after the first load, after the reply, and the
      outcomes of the three exploration attempts. */
  method Play() returns (afterLoad: seq<string>, afterReply: seq<string>,
                         first: ExploreOutcome, blocked: ExploreOutcome, later: ExploreOutcome)
    ensures afterLoad == ["e1"]
    ensures afterReply == ["e1", "e2"]
    ensures first == Explored && blocked == StillCooling && later == Explored
  {
    var game := new Game(DEFS, None, 0);
    game.LoadState();
    FirstLoadGrantsStart();
    afterLoad := game.state.evidences;
    AskAboutKey(game);
    afterReply := game.state.evidences;
    first, blocked, later := ExploreSixThenSeven(game);
  }
}

=== FILE: wrappers.dfy ===
/** Optional values, for the places where the game reads a key that may be absent. */
module Wrappers {

  datatype Option<+T> = None | Some(value: T) {

    /** The value held, or `default` when there is none (JavaScript's `x || default` on a present/absent key). */
    function GetOr(default: T): T
    {
      match this
      case Some(v) => v
      case None => default
    }
  }
}
